=== FILE: README.md ===
# Simple Social client: URL transform builder and session controller

A Dafny model of the two pieces of logic in the Streamlit client `app/frontend.py`.

1. **The CDN URL transform builder.** `create_transformed_url` splits an asset URL on `/`. It then splices a `tr:<params>` segment in after the fourth `/`. A non-empty caption replaces the caller's parameters with a fixed text-overlay template. The overlay template embeds the caption encoded by `encode_text_for_overlay`, in three steps:
   - UTF-8 (RFC 3629, section 3);
   - base 64 with the standard alphabet and `=` padding (RFC 4648, section 4);
   - Python's `urllib.parse.quote`, i.e. percent-encoding (RFC 3986, section 2.1) with the default `safe='/'`.

   Each step is modelled on sequences of characters and octets. Each has a decoder as its partner, and the round trips are proved. The model reproduces the source exactly: `quote` escapes `+` and `=` but keeps `/`.
2. **The session controller and the view flow.** The state is `token`, `user` and `last_token_check_failed`, plus the `token` query parameter that carries the token across reloads. Each transition is a total function of the state and of the backend's answer:
   - start-up restore;
   - the guarded `/users/me` check;
   - login, sign-up and logout;
   - screen selection;
   - the feed's per-post delete and media decisions.

   Streamlit reruns the whole script on every interaction. The model follows this: `View.RunScript` is one run, and a session's history is a sequence of runs.

Modules:

| module | file | models |
|---|---|---|
| `Wrappers` | wrappers.dfy | `Option`, `byte`, Python truthiness of an optional string, and the sequence cuts the proofs share |
| `Utf8` | utf8.dfy | `str.encode('utf-8')` and a strict decoder |
| `Base64` | base64.dfy | `base64.b64encode` and a strict decoder |
| `Percent` | percent.dfy | `urllib.parse.quote` / `quote_from_bytes` and a percent-decoder |
| `Split` | split.dfy | `str.split('/')`, `'/'.join` |
| `Transform` | transform.dfy | `encode_text_for_overlay`, `create_transformed_url` |
| `Auth` | auth.dfy | session state, restore, `get_headers`, the check, login, sign-up, logout |
| `View` | view.dfy | screen selection, one script run, sequences of runs |
| `Feed` | feed.dfy | `feed_page`'s per-post decisions |

Backend calls are not made. Each call's outcome is an input value:
- `MeOutcome` is `Reply(status, body)` or `TransportError`. A `body` of `None` stands for a `.json()` that raises.
- `LoginOutcome`, `SignupOutcome`, `FeedOutcome` and `DeleteOutcome` follow the same pattern.

Behaviour of the code worth knowing, some of it at odds with the code's own comments:
- **Failure flag.** The comment at app/frontend.py:33-34 says the check runs "whenever session_state.token is set and user is None". The one at line 47 says repeated failing attempts are avoided "this run". But `last_token_check_failed` is never reset. So after a failed check, no later run in that browser session calls `/users/me` at the top level, even after a new login (`View.FailedCheckIsFinal`).
- **Login's `/users/me` call.** Login's own `/users/me` call (line 106) has no `try` and no timeout, unlike every other request. A transport error there, or an unreadable body, escapes as `Raised`. The token is then already stored in state and in the address bar.
- **Non-200 during login.** If that call returns non-200, the token and the query parameter stay set and `user` stays `None` (`View.LoginUserFetchRefused`). The next run checks that token again, unless a check has already failed (`View.RefusedLoginThenRejected`).
- **Percent-encoding of `/`.** `quote` keeps `/` (its default `safe='/'`), so a caption whose base 64 form holds `/` yields a token with `/` in it. For example, `"???"` becomes `"Pz8/"`, and the overlay then spans two path segments (`Transform.OverlayTokenMayHoldSlash`).
- **Delete click.** A delete click stops part of the feed loop early. After a transport error, `continue` (line 188) skips that post's media. After a 200, `st.rerun()` (line 192) ends the run, so no later post is shown (`Feed.FeedPage`).

## Model

| member | source | states |
|---|---|---|
| `Utf8.EncodeChar` | app/frontend.py:57 | one character becomes 1-4 octets: a lead octet and then continuation octets; an ASCII character is its own single octet |
| `Utf8.Encode` | app/frontend.py:57 | `text.encode('utf-8')` is between 1 and 4 octets per character, and on ASCII text it is the character codes themselves |
| `Utf8.DecodeEncode` | app/frontend.py:57 | decoding the UTF-8 encoding of any string gives the string back |
| `Utf8.EncodeDecode` | app/frontend.py:57 | the decoder accepts only canonical UTF-8: re-encoding its result gives the input octets |
| `Base64.Encode` | app/frontend.py:57 | `b64encode` output has length 4·⌈n/3⌉ and uses only the standard alphabet and `=` |
| `Base64.Decode` | app/frontend.py:57 | a successful decode had input of length 4·⌈m/3⌉ for m output octets |
| `Base64.DecodeEncode` | app/frontend.py:57 | decoding the base 64 encoding of any octets gives them back |
| `Base64.EncodeDecode` | app/frontend.py:57 | the decoder accepts only canonical base 64 (padding bits zero): re-encoding gives the input text |
| `Percent.QuoteByte` | app/frontend.py:58 | a safe octet (unreserved or `/`) is kept as its own character; any other octet becomes `%` and two upper-case hex digits of its value |
| `Percent.QuoteBytes` | app/frontend.py:58 | `quote` output is between one and three characters per input octet; which octets are kept is fixed octet by octet by `QuoteBytesAppend` and `QuoteBytesAt` |
| `Percent.QuoteBytesAppend` | app/frontend.py:58 | `quote` works octet by octet: quoting a concatenation is the concatenation of the quoted parts |
| `Percent.QuoteBytesAt` | app/frontend.py:58 | octet `i` of the input is rendered in place, by `QuoteByte` alone, between the quoted octets before and after it, so a safe octet stays as is whatever else the text holds |
| `Percent.Quote` | app/frontend.py:58 | `quote(s)` is in `quote`'s output alphabet, percent-decodes to the UTF-8 octets of `s`, and is between 1 and 12 characters per input character; it is `QuoteBytes` of those octets, so `QuoteBytesAppend` and `QuoteBytesAt` fix it per octet |
| `Percent.PercentDecodeQuoteBytes` | app/frontend.py:58 | percent-decoding undoes `quote` on any octets |
| `Percent.QuoteBytesIsQuoted` | app/frontend.py:58 | `quote` output consists only of unreserved characters, `/` and `%XX` triplets with upper-case hex digits |
| `Percent.QuoteSafeText` | app/frontend.py:58 | text made only of unreserved characters and `/` passes through `quote` unchanged |
| `Percent.QuoteMixedText` | app/frontend.py:58 | in mixed text safe characters are kept next to escaped ones: `aGk=` becomes `aGk%3D` and `/=` becomes `/%3D` |
| `Percent.QuoteBase64Specials` | app/frontend.py:58 | of base 64's symbols, `+` becomes `%2B` and `=` becomes `%3D`, while `/` stays `/` |
| `Split.Join` | app/frontend.py:73-74 | `'/'.join(parts)`: the empty list joins to the empty string, the result starts with the first part, and with two or more parts the separator follows it; `SplitJoin`, `JoinAppend` and `OccurrencesJoin` relate it to splitting |
| `Split.SplitOn` | app/frontend.py:69 | `split('/')` gives one more part than there are `/`, no part contains `/`, and joining the parts gives the string back |
| `Split.SplitJoin` | app/frontend.py:69 | splitting a join of `/`-free parts gives those parts back |
| `Split.JoinAppend` | app/frontend.py:73-74 | joining a concatenation of two non-empty lists is joining each of them with one `/` between |
| `Split.OccurrencesJoin` | app/frontend.py:74 | a join of k `/`-free parts holds exactly k−1 `/` |
| `Transform.EncodeTextForOverlay` | app/frontend.py:53-58 | the overlay token is empty exactly when the caption is empty |
| `Transform.OverlayParams` | app/frontend.py:63 | the overlay parameters are `l-text,ie-`, the token, and a fixed 47-character tail ending in `,l-end` |
| `Transform.EffectiveParams` | app/frontend.py:61-64 | a truthy caption replaces the caller's parameters with the overlay template (non-empty, from `l-text,ie-` to `,l-end`); otherwise the caller's parameters are used unchanged |
| `Transform.CreateTransformedUrl` | app/frontend.py:60-75 | with non-empty effective parameters and at least four `/`, the URL with `tr:<params>/` inserted right after its fourth `/`; otherwise the URL unchanged (the cases are spelled out by `SpliceAfterFourthSlash`, `ShortUrlUnchanged`, `EmptyParamsUnchanged` and `CaptionOverridesParams`) |
| `Transform.OverlayRoundTrip` | app/frontend.py:53-58 | for a non-empty caption, percent-decoding, then UTF-8 decoding, then base 64 decoding the token gives the caption's UTF-8 octets; decoding those gives the caption; the token is only unreserved characters, `/` and `%XX` |
| `Transform.Cut` | app/frontend.py:69-74 | the cut point lies just after the URL's fourth `/`: exactly three `/` come before it |
| `Transform.BaseUrl` | app/frontend.py:74 | the base is the prefix of the URL before its fourth `/`: a proper prefix with three `/`, followed by `/` |
| `Transform.FilePath` | app/frontend.py:73 | base, `/` and file path put together are the original URL |
| `Transform.SpliceAfterFourthSlash` | app/frontend.py:69-75 | with non-empty parameters and at least four `/`, the result is the URL with `tr:<params>/` inserted after its fourth `/`; deleting it recovers the URL |
| `Transform.SpliceSlashCount` | app/frontend.py:72-75 | the result holds the URL's `/`, plus one closing the new segment, plus those in the parameters |
| `Transform.ShortUrlUnchanged` | app/frontend.py:69-71 | a URL with fewer than four `/` (including the empty one) comes back unchanged whatever the parameters or caption |
| `Transform.EmptyParamsUnchanged` | app/frontend.py:66-67 | with an empty or absent caption and empty parameters the URL comes back unchanged |
| `Transform.CaptionOverridesParams` | app/frontend.py:61-64 | a non-empty caption makes the result independent of the caller's parameters; the parameters become exactly `l-text,ie-<token>,ly-N20,lx-20,fs-100,co-white,bg-000000A0,l-end` |
| `Transform.CdnShapedUrl` | app/frontend.py:69-75 | on `scheme://host/id/path…` the segment lands right after `id`, and the path keeps all its own `/` |
| `Transform.Example` | app/frontend.py:60-75 | `https://ik.io/abc/d/e.jpg` with `w-10` gives `https://ik.io/abc/tr:w-10/d/e.jpg` |
| `Transform.OverlayTokenMayHoldSlash` | app/frontend.py:58-64 | caption `???` gives token `Pz8/`, and the overlay segment then adds at least two `/` to the URL instead of one |
| `Auth.Start` | app/frontend.py:15-20 | a new session holds no token, no user, and the flag is false, while the address bar's token is carried over unchanged |
| `Auth.StartAdoptsCarrier` | app/frontend.py:15-25 | on a new session the address bar's token becomes the held token, and it is due for a check exactly when it is non-empty |
| `Auth.Restore` | app/frontend.py:23-25 | the query-string token is adopted only when no truthy token is held; otherwise, and without a query token, nothing changes; user, flag and query string never change |
| `Auth.Headers` | app/frontend.py:27-31 | an `Authorization: Bearer <token>` header is present exactly when the token is truthy, and it is the only header; without a truthy token the headers are empty |
| `Auth.Reconcile` | app/frontend.py:35-48 | without the guard nothing changes; under it, a 200 with a user records the user and keeps the token and query string; a non-200 wipes token, user and query string and sets the flag; a transport error or an unreadable 200 body keeps all three and sets the flag; afterwards the guard is false, and a set flag stays set |
| `Auth.Login` | app/frontend.py:86-113 | without both fields nothing changes; an unreachable backend or a refused login changes nothing and shows an error; a 200 without `access_token` raises with nothing stored; otherwise the token is stored in state and query string, then a 200 user is recorded with a rerun, a refused fetch shows an error, and a transport error or unreadable body raises; the flag is never touched |
| `Auth.Signup` | app/frontend.py:116-131 | sign-up never changes the session; it reports success exactly on a 201 with both fields filled |
| `Auth.Logout` | app/frontend.py:219-224 | logout sets user and token to `None`, clears the query string, keeps the flag, and reruns |
| `View.SelectScreen` | app/frontend.py:213-232 | the login page exactly when no user is known; otherwise the shell for that user's email with the chosen page |
| `View.RunScript` | app/frontend.py:22-48 | a run calls `/users/me` exactly when no user is known, no check has failed, and a truthy token is held or in the address bar; that check leads to the shell exactly when it returns a user; without a check the known user decides the screen; the flag is never cleared |
| `View.FailedCheckIsFinal` | app/frontend.py:35-48 | once the flag is set, no later run in any sequence calls `/users/me` at the top level, and the flag stays set |
| `View.RejectedStartupToken` | app/frontend.py:38-45 | a start-up token answered by non-200 is checked once; the run clears token, user and query string, sets the flag, shows the login page; later runs never check again |
| `View.AcceptedStartupToken` | app/frontend.py:35-39 | a start-up token answered by 200 with a user is checked once; the run keeps the token in state and query string, records the user, leaves the flag clear and shows the shell |
| `View.UnreachableAtStartup` | app/frontend.py:46-48 | a start-up check with a transport error keeps the token and query string, sets the flag, shows the login page; later runs never check again |
| `View.LogoutThenLoginPage` | app/frontend.py:219-224 | after Logout the next run shows the login page without calling `/users/me`, and the flag is as before |
| `View.LoginThenShell` | app/frontend.py:98-109 | login with a 200 token and a 200 user stores both and the query token and reruns; the next run shows the shell for that user without a new check |
| `View.LoginUserFetchRefused` | app/frontend.py:105-111 | login whose `/users/me` is refused keeps the new token in state and query string with no user; the next run checks again exactly when the flag is clear, and stays on the login page when it is set |
| `View.RefusedLoginThenRejected` | app/frontend.py:35-45 | the token a refused login fetch left behind is checked by the next run when no check has failed; a refusal there wipes token, user and query string, sets the flag and shows the login page |
| `Feed.FeedPage` | app/frontend.py:164-208 | posts are listed exactly on a 200 reply with a non-empty list, one view per post in the backend's order, each offering delete exactly on one's own post; without a click every post is shown with its media; a delete click on one's own post drops that post's media after a transport error or a 200, and a 200 also ends the list at that post and reruns |
| `Feed.ViewPost` | app/frontend.py:176-203 | one post without a click: delete offered exactly on one's own post, media always shown, an image exactly when `file_type` is `image`, shown from `CreateTransformedUrl(url, "", caption)`; otherwise a video shown from `CreateTransformedUrl(url, VideoParams, None)` and carrying the caption as text |
| `Feed.RefusedDeleteKeepsFeed` | app/frontend.py:190-194 | a delete refused by the backend leaves every view as it is without a click, and on one's own post shows the error |
| `Feed.DeleteRequest` | app/frontend.py:182-185 | a `DELETE /posts/<id>` request exists exactly for posts with `is_owner` true |
| `Feed.AfterDelete` | app/frontend.py:184-194 | the feed is rerun exactly after a 200 reply to the delete |
| `Feed.DeleteOnlyForOwner` | app/frontend.py:182-183 | in every view of the feed the delete button is offered exactly when `is_owner` is true |
| `Feed.CaptionedImage` | app/frontend.py:196-199 | a captioned image on a CDN-shaped URL is shown through the caption overlay, whose token decodes back to the caption |
| `Feed.ShortUrlImage` | app/frontend.py:196-199 | an image, captioned or not, on a URL with fewer than four `/` is shown from its URL unchanged |
| `Feed.UncaptionedImage` | app/frontend.py:196-199 | an image without a caption is shown from its URL unchanged |
| `Feed.VideoIgnoresCaption` | app/frontend.py:200-203 | any non-image is shown with `w-400,h-200,cm-pad_resize,bg-blurred` whatever its caption, unchanged when the URL has fewer than four `/` |

## Left out

- Streamlit rendering is not modelled: titles, columns, sidebar, spinners and widget layout. These are framework effects. `st.rerun()` is the `Rerun` feedback, and the next run recomputes the screen from the state.
- HTTP is not modelled: `requests` calls, timeouts, multipart bodies and JSON parsing. These are network I/O, so each response is an abstract outcome value.
- `upload_page` (lines 135-159) is not modelled. It sends a multipart request and shows a message, and it changes no session state.
- Sign-up and upload error messages are modelled only as far as the `detail`-or-`"Registration failed"` fallback. A non-string `detail` is formatted by Python's f-string, which is not modelled.
- The `created_at[:10]` date, the `'Unknown'` email default and the uploader's extension list are not modelled. They are presentation only.
- Missing post keys with a default are read as already defaulted: `''` for strings, `False` for `is_owner`. A JSON `null` caption is taken as `''`; both are falsy for the builder.
- Feed.FeedPage: every post is assumed to have an `id`. An owned post without one raises `KeyError` at `post['id']` (lines 183 and 185), and the model does not cover that.
- Only one delete click per run is modelled. Streamlit reports at most one button press per run.
- A feed body that does not parse on a 200 is not modelled. The source raises there, uncaught.
- A `/users/me` body that is JSON `null` is not modelled. In the source it would leave `user` as `None` after a 200.
- A 200 `/users/me` body that is not a JSON object, or has no `email`, is not modelled: `User` always carries an email. In the source such a body is stored as the user, and line 217 (`user['email']`) then raises on every run, before the Logout button of line 219 is drawn. A reload checks the token again and gets the same body, so that browser session stays stuck.
- Only the `token` query parameter is modelled. `experimental_set_query_params()` clears every parameter. The token is the first value of its list.
- Strings are sequences of Unicode scalar values. Python strings can also hold lone surrogates, on which `encode('utf-8')` raises; those are not modelled.
- `Percent.PercentDecode` is a lenient ASCII decoder, used as the partner of `quote` in the round trip. It accepts lower-case hex and any ASCII character, reserved ones included. It rejects a malformed `%` triplet and anything outside ASCII. It does not model Python's `unquote`, which the source never calls.

=== FILE: auth.dfy ===
/**
 * The session controller of app/frontend.py: the per-browser-session state
 * (`token`, `user`, `last_token_check_failed`), the `token` query parameter that
 * carries the token across reloads, and the transitions the script applies to
 * them on each run. Backend calls are not made here: their outcomes are inputs.
 */
module Auth {
  import opened Wrappers

  /** The JSON object `/users/me` returns; only `email` is read. */
  datatype User = User(email: string)

  /**
   * `st.session_state` together with the address bar's `token` query parameter
   * (`queryToken`), which is the only state that survives a reload.
   */
  datatype Session = Session(
    token: Option<string>,
    user: Option<User>,
    lastTokenCheckFailed: bool,
    queryToken: Option<string>)

  /** Outcome of a `GET /users/me` call; `body` is `None` when `response.json()` raises. */
  datatype MeOutcome = Reply(status: int, body: Option<User>) | TransportError

  /** Outcome of `POST /auth/jwt/login`; `accessToken` is `None` when the body has none. */
  datatype LoginOutcome = LoginReply(status: int, accessToken: Option<string>) | LoginTransportError

  /** Outcome of `POST /auth/register`; `detail` is the body's `detail`, if it parses to one. */
  datatype SignupOutcome = SignupReply(status: int, detail: Option<string>) | SignupTransportError

  /** What a handler leaves on the page, or `st.rerun()`, or an exception the script does not catch. */
  datatype Feedback = Quiet | Info(text: string) | Success(text: string) | Error(text: string) | Rerun | Raised

  /** The result of a handler: the new state and what the user sees. */
  datatype Step = Step(session: Session, feedback: Feedback)

  /** Python truthiness of the stored token. */
  predicate HasToken(s: Session)
  {
    Truthy(s.token)
  }

  /** Lines 15-20 on a new browser session: every key takes its default. */
  function Start(queryToken: Option<string>): (s: Session)
    ensures !HasToken(s) && s.user.None? && !s.lastTokenCheckFailed
    ensures s.token.None? && s.queryToken == queryToken
  {
    Session(None, None, false, queryToken)
  }

  /** Lines 23-25: adopt the query-string token, but only when no token is held. */
  function Restore(s: Session): (r: Session)
    ensures HasToken(s) ==> r == s
    ensures !HasToken(s) && s.queryToken.Some? ==> r.token == s.queryToken
    ensures r.user == s.user && r.lastTokenCheckFailed == s.lastTokenCheckFailed && r.queryToken == s.queryToken
    ensures s.queryToken.None? ==> r == s
  {
    if !HasToken(s) && s.queryToken.Some? then s.(token := s.queryToken) else s
  }

  /**
   * On a new browser session the address bar's token is adopted as is, and it is
   * checked against `/users/me` exactly when it is non-empty.
   */
  lemma StartAdoptsCarrier(queryToken: Option<string>)
    ensures Restore(Start(queryToken)).token == queryToken
    ensures ShouldVerify(Restore(Start(queryToken))) <==> Truthy(queryToken)
  {
  }

  /** `get_headers()`: a bearer header exactly when a token is held. */
  function Headers(s: Session): (h: map<string, string>)
    ensures "Authorization" in h <==> HasToken(s)
    ensures HasToken(s) ==> h["Authorization"] == "Bearer " + s.token.value
    ensures !HasToken(s) ==> h == map[]
    ensures |h| <= 1
  {
    if HasToken(s) then map["Authorization" := "Bearer " + s.token.value] else map[]
  }

  /** The guard of lines 35: a token, no user yet, and no failed check this session. */
  predicate ShouldVerify(s: Session)
  {
    HasToken(s) && s.user.None? && !s.lastTokenCheckFailed
  }

  /**
   * Lines 35-48: the guarded `/users/me` check. Whatever the outcome, the guard is
   * false afterwards, and a failed check is never forgotten. A 200 with a user
   * keeps the token; a refusal wipes token, user and address bar; an unreachable
   * backend (or an unreadable 200 body) keeps everything but sets the flag.
   */
  function Reconcile(s: Session, outcome: MeOutcome): (r: Session)
    ensures !ShouldVerify(r)
    ensures s.lastTokenCheckFailed ==> r.lastTokenCheckFailed
    ensures !ShouldVerify(s) ==> r == s
    ensures r.user.Some? && s.user.None? ==> outcome == Reply(200, r.user)
    ensures ShouldVerify(s) && outcome.Reply? && outcome.status == 200 && outcome.body.Some? ==>
              r == s.(user := outcome.body)
    ensures ShouldVerify(s) && outcome.Reply? && outcome.status != 200 ==>
              r == Session(None, None, true, None)
    ensures ShouldVerify(s) && (outcome.TransportError? || outcome == Reply(200, None)) ==>
              r == s.(lastTokenCheckFailed := true)
  {
    if !ShouldVerify(s) then s
    else
      match outcome
      case Reply(status, body) =>
        if status == 200 then
          if body.Some? then s.(user := body)
          // `user_response.json()` raised inside the `try`: caught like a network failure.
          else s.(lastTokenCheckFailed := true)
        else Session(None, None, true, None)
      case TransportError => s.(lastTokenCheckFailed := true)
  }

  /** Line 86: both text inputs are non-empty, so the Login and Sign Up buttons exist. */
  predicate Entered(email: string, password: string)
  {
    email != "" && password != ""
  }

  /** Line 98: the login endpoint answered 200. */
  predicate LoginAccepted(login: LoginOutcome)
  {
    login.LoginReply? && login.status == 200
  }

  /**
   * Lines 86-113: the Login button. The `/users/me` call here has no `try`, so a
   * transport error (or an unreadable body) escapes as `Raised`, leaving behind
   * whatever was already stored.
   */
  function Login(s: Session, email: string, password: string, login: LoginOutcome, me: MeOutcome): (r: Step)
    ensures r.session.lastTokenCheckFailed == s.lastTokenCheckFailed
    ensures r.session.user != s.user ==> me.Reply? && me.status == 200 && r.session.user == me.body
    ensures r.session.token != s.token ==> r.session.token == r.session.queryToken
    // Line 86: without both fields there is no button.
    ensures !Entered(email, password) ==> r.session == s && r.feedback.Info?
    // Lines 92-96 and 112-113: an unreachable backend or a refused login changes nothing.
    ensures Entered(email, password) && !LoginAccepted(login) ==> r.session == s && r.feedback.Error?
    // Line 100: a 200 without `access_token` raises before anything is stored.
    ensures Entered(email, password) && login == LoginReply(200, None) ==> r == Step(s, Raised)
    // Lines 100-111 once a token is issued: it is stored, then the user fetch decides.
    ensures Entered(email, password) && LoginAccepted(login) && login.accessToken.Some? ==>
              var stored := s.(token := login.accessToken, queryToken := login.accessToken);
              && (me.TransportError? || me == Reply(200, None) ==> r == Step(stored, Raised))
              && (me.Reply? && me.status != 200 ==> r == Step(stored, Error("Failed to get user info")))
              && (me.Reply? && me.status == 200 && me.body.Some? ==> r == Step(stored.(user := me.body), Rerun))
  {
    if !Entered(email, password) then Step(s, Info("Enter your email and password above"))
    else
      match login
      case LoginTransportError => Step(s, Error("Could not contact backend. Is the API running?"))
      case LoginReply(status, accessToken) =>
        if status != 200 then Step(s, Error("Invalid email or password!"))
        else if accessToken.None? then Step(s, Raised)
        else
          var stored := s.(token := accessToken, queryToken := accessToken);
          match me
          case TransportError => Step(stored, Raised)
          case Reply(meStatus, body) =>
            if meStatus != 200 then Step(stored, Error("Failed to get user info"))
            else if body.None? then Step(stored, Raised)
            else Step(stored.(user := body), Rerun)
  }

  /** Lines 116-131: the Sign Up button; it never touches the session. */
  function Signup(s: Session, email: string, password: string, outcome: SignupOutcome): (r: Step)
    ensures r.session == s
    ensures outcome.SignupReply? && outcome.status == 201 && Entered(email, password)
            <==> r.feedback == Success("Account created! Click Login now.")
  {
    if !Entered(email, password) then Step(s, Info("Enter your email and password above"))
    else
      match outcome
      case SignupTransportError => Step(s, Error("Could not contact backend. Is the API running?"))
      case SignupReply(status, detail) =>
        if status == 201 then Step(s, Success("Account created! Click Login now."))
        else
          var text := if detail.Some? then detail.value else "Registration failed";
          Step(s, Error("Registration failed: " + text))
  }

  /** Lines 219-224: the Logout button clears user, token and query string, not the failure flag. */
  function Logout(s: Session): (r: Step)
    ensures r.session.token.None? && r.session.user.None? && r.session.queryToken.None?
    ensures r.session.lastTokenCheckFailed == s.lastTokenCheckFailed
    ensures r.feedback == Rerun
  {
    Step(s.(user := None, token := None, queryToken := None), Rerun)
  }
}

=== FILE: base64.dfy ===
/**
 * Base 64 with the standard alphabet and `=` padding (RFC 4648, section 4), as
 * Python's `base64.b64encode` produces it, with a strict decoder as its inverse.
 */
module Base64 {
  import opened Wrappers

  type sextet = x: int | 0 <= x < 64

  /** The value-to-character table of RFC 4648, section 4. */
  function Symbol(i: sextet): (c: char)
  {
    if i < 26 then ('A' as int + i) as char
    else if i < 52 then ('a' as int + i - 26) as char
    else if i < 62 then ('0' as int + i - 52) as char
    else if i == 62 then '+'
    else '/'
  }

  /** The inverse table; `None` for characters outside the alphabet (including `=`). */
  function Value(c: char): Option<sextet>
  {
    if 'A' <= c <= 'Z' then Some(c as int - 'A' as int)
    else if 'a' <= c <= 'z' then Some(c as int - 'a' as int + 26)
    else if '0' <= c <= '9' then Some(c as int - '0' as int + 52)
    else if c == '+' then Some(62)
    else if c == '/' then Some(63)
    else None
  }

  lemma ValueSymbol(i: sextet)
    ensures Value(Symbol(i)) == Some(i)
  {
  }

  predicate IsAlphabet(c: char)
  {
    'A' <= c <= 'Z' || 'a' <= c <= 'z' || '0' <= c <= '9' || c == '+' || c == '/'
  }

  lemma SymbolValue(c: char)
    requires IsAlphabet(c)
    ensures Value(c).Some? && Symbol(Value(c).value) == c
  {
  }

  /** Three octets as four symbols, six bits each, most significant first. */
  function Group(b0: byte, b1: byte, b2: byte): (q: string)
    ensures |q| == 4 && forall i :: 0 <= i < 4 ==> IsAlphabet(q[i])
  {
    [Symbol(b0 / 4), Symbol((b0 % 4) * 16 + b1 / 16), Symbol((b1 % 16) * 4 + b2 / 64), Symbol(b2 % 64)]
  }

  /** A last group of two octets: three symbols, the low bits zero-filled, then `=`. */
  function PadTwo(b0: byte, b1: byte): (q: string)
    ensures |q| == 4 && q[3] == '=' && forall i :: 0 <= i < 3 ==> IsAlphabet(q[i])
  {
    [Symbol(b0 / 4), Symbol((b0 % 4) * 16 + b1 / 16), Symbol((b1 % 16) * 4), '=']
  }

  /** A last group of one octet: two symbols, the low bits zero-filled, then `==`. */
  function PadOne(b0: byte): (q: string)
    ensures |q| == 4 && q[2] == '=' && q[3] == '=' && IsAlphabet(q[0]) && IsAlphabet(q[1])
  {
    [Symbol(b0 / 4), Symbol((b0 % 4) * 16), '=', '=']
  }

  /** `base64.b64encode(bs)`: each three octets become four symbols, and a short last group is padded with `=`. */
  function Encode(bs: seq<byte>): (s: string)
    ensures |s| == 4 * ((|bs| + 2) / 3)
    ensures forall i :: 0 <= i < |s| ==> IsAlphabet(s[i]) || s[i] == '='
    decreases |bs|
  {
    if |bs| == 0 then ""
    else if |bs| == 1 then PadOne(bs[0])
    else if |bs| == 2 then PadTwo(bs[0], bs[1])
    else
      GroupCount(|bs|);
      Group(bs[0], bs[1], bs[2]) + Encode(bs[3..])
  }

  /** One group of four symbols, then the groups of the remaining octets. */
  lemma GroupCount(n: nat)
    requires n >= 3
    ensures 4 + 4 * ((n - 3 + 2) / 3) == 4 * ((n + 2) / 3)
  {
  }

  /** A group of four alphabet symbols with no padding. */
  function DecodeFull(q: string): Option<seq<byte>>
    requires |q| == 4
  {
    match (Value(q[0]), Value(q[1]), Value(q[2]), Value(q[3]))
    case (Some(a), Some(b), Some(c), Some(d)) =>
      Some([a as int * 4 + b / 16, (b as int % 16) * 16 + c / 4, (c as int % 4) * 64 + d])
    case _ => None
  }

  /**
   * The final group, which may end in `==` (one octet) or `=` (two octets); the
   * bits the padding leaves over must be zero, so every accepted text is canonical.
   */
  function DecodeLast(q: string): Option<seq<byte>>
    requires |q| == 4
  {
    if q[2] == '=' && q[3] == '=' then
      match (Value(q[0]), Value(q[1]))
      case (Some(a), Some(b)) =>
        if b % 16 == 0 then Some([a as int * 4 + b / 16]) else None
      case _ => None
    else if q[3] == '=' then
      match (Value(q[0]), Value(q[1]), Value(q[2]))
      case (Some(a), Some(b), Some(c)) =>
        if c % 4 == 0 then Some([a as int * 4 + b / 16, (b as int % 16) * 16 + c / 4]) else None
      case _ => None
    else DecodeFull(q)
  }

  /** Strict decoding: length a multiple of four, padding only at the very end. */
  function Decode(s: string): (r: Option<seq<byte>>)
    ensures r.Some? ==> |s| == 4 * ((|r.value| + 2) / 3)
    decreases |s|
  {
    if |s| == 0 then Some([])
    else if |s| < 4 then None
    else if |s| == 4 then DecodeLast(s)
    else
      match (DecodeFull(s[..4]), Decode(s[4..]))
      case (Some(head), Some(tail)) =>
        GroupCount(|tail| + 3);
        Some(head + tail)
      case _ => None
  }

  lemma DecodeFullGroup(b0: byte, b1: byte, b2: byte)
    ensures DecodeFull(Group(b0, b1, b2)) == Some([b0, b1, b2])
  {
    ValueSymbol(b0 / 4);
    ValueSymbol((b0 % 4) * 16 + b1 / 16);
    ValueSymbol((b1 % 16) * 4 + b2 / 64);
    ValueSymbol(b2 % 64);
    GroupSextets(b0, b1, b2);
  }

  /** The four sextets of a group put back together give its three octets. */
  lemma GroupSextets(b0: byte, b1: byte, b2: byte)
    ensures var b, c := (b0 % 4) * 16 + b1 / 16, (b1 % 16) * 4 + b2 / 64;
            && (b0 / 4) * 4 + b / 16 == b0
            && (b % 16) * 16 + c / 4 == b1
            && (c % 4) * 64 + b2 % 64 == b2
  {
    var b := (b0 % 4) * 16 + b1 / 16;
    var c := (b1 % 16) * 4 + b2 / 64;
    assert b / 16 == b0 % 4 && b % 16 == b1 / 16;
    assert c / 4 == b1 % 16 && c % 4 == b2 / 64;
  }

  lemma DecodeLastOne(b0: byte)
    ensures DecodeLast(PadOne(b0)) == Some([b0])
  {
    ValueSymbol(b0 / 4);
    ValueSymbol((b0 % 4) * 16);
  }

  lemma DecodeLastTwo(b0: byte, b1: byte)
    ensures DecodeLast(PadTwo(b0, b1)) == Some([b0, b1])
  {
    var b := (b0 % 4) * 16 + b1 / 16;
    ValueSymbol(b0 / 4);
    ValueSymbol(b);
    ValueSymbol((b1 % 16) * 4);
    assert b / 16 == b0 % 4 && b % 16 == b1 / 16;
    assert ((b1 % 16) * 4) / 4 == b1 % 16;
  }

  lemma DecodeEncodeGroupOnly(bs: seq<byte>)
    requires |bs| == 3
    ensures Decode(Encode(bs)) == Some(bs)
  {
    var q := Group(bs[0], bs[1], bs[2]);
    assert Encode(bs[3..]) == [];
    assert Encode(bs) == q;
    DecodeFullGroup(bs[0], bs[1], bs[2]);
    assert DecodeLast(q) == DecodeFull(q);
    assert bs == [bs[0], bs[1], bs[2]];
  }

  /** Decoding a text of more than four symbols: the first group, then the rest. */
  lemma DecodeCons(q: string, t: string, head: seq<byte>, tail: seq<byte>)
    requires |q| == 4 && |t| > 0
    requires DecodeFull(q) == Some(head) && Decode(t) == Some(tail)
    ensures Decode(q + t) == Some(head + tail)
  {
    var s := q + t;
    assert s[..4] == q;
    assert s[4..] == t;
  }

  lemma DecodeEncodeMore(bs: seq<byte>)
    requires |bs| > 3
    requires Decode(Encode(bs[3..])) == Some(bs[3..])
    ensures Decode(Encode(bs)) == Some(bs)
  {
    var rest := bs[3..];
    DecodeFullGroup(bs[0], bs[1], bs[2]);
    assert |Encode(rest)| >= 4;
    DecodeCons(Group(bs[0], bs[1], bs[2]), Encode(rest), [bs[0], bs[1], bs[2]], rest);
    SplitThree(bs);
  }

  /** Encoding then decoding gives the octets back. */
  lemma {:induction false} DecodeEncode(bs: seq<byte>)
    ensures Decode(Encode(bs)) == Some(bs)
    decreases |bs|
  {
    if |bs| == 1 {
      DecodeLastOne(bs[0]);
      assert bs == [bs[0]];
    } else if |bs| == 2 {
      DecodeLastTwo(bs[0], bs[1]);
      assert bs == [bs[0], bs[1]];
    } else if |bs| == 3 {
      DecodeEncodeGroupOnly(bs);
    } else if |bs| > 3 {
      DecodeEncode(bs[3..]);
      DecodeEncodeMore(bs);
    }
  }

  lemma GroupDecodeFull(q: string)
    requires |q| == 4 && DecodeFull(q).Some?
    ensures var h := DecodeFull(q).value; |h| == 3 && Group(h[0], h[1], h[2]) == q
  {
    var a, b, c, d := Value(q[0]).value, Value(q[1]).value, Value(q[2]).value, Value(q[3]).value;
    SymbolValue(q[0]);
    SymbolValue(q[1]);
    SymbolValue(q[2]);
    SymbolValue(q[3]);
    var h := DecodeFull(q).value;
    assert h[0] / 4 == a && h[0] % 4 == b / 16;
    assert h[1] / 16 == b % 16 && h[1] % 16 == c / 4;
    assert h[2] / 64 == c % 4 && h[2] % 64 == d;
  }

  lemma PadDecodeLast(q: string)
    requires |q| == 4 && DecodeLast(q).Some?
    ensures var h := DecodeLast(q).value;
            && 1 <= |h| <= 3
            && (|h| == 1 ==> PadOne(h[0]) == q)
            && (|h| == 2 ==> PadTwo(h[0], h[1]) == q)
            && (|h| == 3 ==> Group(h[0], h[1], h[2]) == q)
  {
    if q[2] == '=' && q[3] == '=' {
      PadOneDecodeLast(q);
    } else if q[3] == '=' {
      PadTwoDecodeLast(q);
    } else {
      GroupDecodeFull(q);
    }
  }

  lemma PadOneDecodeLast(q: string)
    requires |q| == 4 && q[2] == '=' && q[3] == '=' && DecodeLast(q).Some?
    ensures var h := DecodeLast(q).value; |h| == 1 && PadOne(h[0]) == q
  {
    var h := DecodeLast(q).value;
    var a, b := Value(q[0]).value, Value(q[1]).value;
    SymbolValue(q[0]);
    SymbolValue(q[1]);
    assert h[0] / 4 == a && (h[0] % 4) * 16 == b;
  }

  lemma PadTwoDecodeLast(q: string)
    requires |q| == 4 && q[2] != '=' && q[3] == '=' && DecodeLast(q).Some?
    ensures var h := DecodeLast(q).value; |h| == 2 && PadTwo(h[0], h[1]) == q
  {
    var h := DecodeLast(q).value;
    var a, b, c := Value(q[0]).value, Value(q[1]).value, Value(q[2]).value;
    SymbolValue(q[0]);
    SymbolValue(q[1]);
    SymbolValue(q[2]);
    assert h[0] / 4 == a && h[0] % 4 == b / 16;
    assert h[1] / 16 == b % 16 && (h[1] % 16) * 4 == c;
  }


  lemma EncodeCons(head: seq<byte>, tail: seq<byte>)
    requires |head| == 3 && |tail| > 0
    ensures Encode(head + tail) == Group(head[0], head[1], head[2]) + Encode(tail)
  {
    var bs := head + tail;
    assert bs[3..] == tail;
    assert bs[0] == head[0] && bs[1] == head[1] && bs[2] == head[2];
  }

  /** The decoder accepts only canonical text: re-encoding what it returns gives the text back. */
  lemma {:induction false} EncodeDecode(s: string)
    requires Decode(s).Some?
    ensures Encode(Decode(s).value) == s
    decreases |s|
  {
    if |s| == 4 {
      PadDecodeLast(s);
      var h := Decode(s).value;
      if |h| == 1 {
        assert h == [h[0]];
      } else if |h| == 2 {
        assert h == [h[0], h[1]];
      } else {
        assert h[3..] == [];
      }
    } else if |s| > 4 {
      var q, t := s[..4], s[4..];
      assert s == q + t;
      var head, tail := DecodeFull(q).value, Decode(t).value;
      GroupDecodeFull(q);
      EncodeDecode(t);
      EncodeCons(head, tail);
    }
  }
}

=== FILE: feed.dfy ===
/**
 * The per-post decisions of `feed_page` in app/frontend.py: whether the delete
 * button is offered, and which transformed URL an image or a video is shown from.
 */
module Feed {
  import opened Wrappers
  import opened Split
  import Transform
  import Utf8
  import Auth

  /** One entry of the feed's `posts` list; missing keys are read as `''` or `False`. */
  datatype Post = Post(id: string, email: string, caption: string, fileType: string, url: string, isOwner: bool)

  datatype Media = Image(src: string) | Video(src: string, caption: string)

  /**
   * What is shown for one post: the delete button or not, and the media, which is
   * missing when the post's delete click ended its loop iteration early.
   */
  datatype PostView = PostView(offersDelete: bool, media: Option<Media>)

  /** Outcome of `GET /feed`. */
  datatype FeedOutcome = FeedReply(status: int, posts: seq<Post>) | FeedTransportError

  /** Outcome of `DELETE /posts/{id}`. */
  datatype DeleteOutcome = DeleteReply(status: int) | DeleteTransportError

  /** The delete button pressed in this run, if any: the post's index and the backend's answer. */
  datatype Click = NoClick | DeleteClick(index: nat, outcome: DeleteOutcome)

  /** The feed page; `feedback` is what the delete click left, `Quiet` without one. */
  datatype FeedScreen = Unreachable | LoadFailed | NoPosts | Posts(views: seq<PostView>, feedback: Auth.Feedback)

  /** The fixed pad-and-resize applied to every video. */
  const VideoParams := "w-400,h-200,cm-pad_resize,bg-blurred"

  /** Lines 176-203 for one post without a delete click: the button on one's own posts, then the media. */
  function ViewPost(p: Post): (v: PostView)
    ensures v.offersDelete <==> p.isOwner
    ensures v.media.Some? && (v.media.value.Image? <==> p.fileType == "image")
    ensures v.media.value.Video? ==> v.media.value.caption == p.caption
    ensures v.media.value.Image? ==> v.media.value.src == Transform.CreateTransformedUrl(p.url, "", Some(p.caption))
    ensures v.media.value.Video? ==> v.media.value.src == Transform.CreateTransformedUrl(p.url, VideoParams, None)
  {
    var media :=
      if p.fileType == "image" then Image(Transform.CreateTransformedUrl(p.url, "", Some(p.caption)))
      else Video(Transform.CreateTransformedUrl(p.url, VideoParams, None), p.caption);
    PostView(p.isOwner, Some(media))
  }

  /** A click lands only on a button that exists: the index of one of one's own posts. */
  predicate Clicked(posts: seq<Post>, click: Click)
  {
    click.DeleteClick? && click.index < |posts| && posts[click.index].isOwner
  }

  /**
   * The delete outcomes that skip the clicked post's media: `continue` after a
   * transport error (line 188) and `st.rerun()` after a 200 (line 192).
   */
  predicate SkipsMedia(outcome: DeleteOutcome)
  {
    outcome.DeleteTransportError? || outcome == DeleteReply(200)
  }

  /**
   * Lines 164-208: the feed, one view per post in the backend's order. A 200
   * delete reruns the script from inside the loop, so no later post is shown.
   */
  function FeedPage(outcome: FeedOutcome, click: Click): (r: FeedScreen)
    ensures r.Posts? <==> outcome.FeedReply? && outcome.status == 200 && |outcome.posts| > 0
    ensures r.Posts? && !Clicked(outcome.posts, click) ==>
              r.feedback == Auth.Quiet && |r.views| == |outcome.posts|
    ensures r.Posts? && Clicked(outcome.posts, click) ==>
              r.feedback == AfterDelete(click.outcome)
              && |r.views| == (if click.outcome == DeleteReply(200) then click.index + 1 else |outcome.posts|)
    ensures r.Posts? ==> forall i :: 0 <= i < |r.views| ==>
              && r.views[i].offersDelete == outcome.posts[i].isOwner
              && (r.views[i].media.None? <==> Clicked(outcome.posts, click) && i == click.index && SkipsMedia(click.outcome))
              && (r.views[i].media.Some? ==> r.views[i] == ViewPost(outcome.posts[i]))
  {
    match outcome
    case FeedTransportError => Unreachable
    case FeedReply(status, posts) =>
      if status != 200 then LoadFailed
      else if posts == [] then NoPosts
      else if !Clicked(posts, click) then
        Posts(seq(|posts|, i requires 0 <= i < |posts| => ViewPost(posts[i])), Auth.Quiet)
      else
        var k := click.index;
        var shown := if click.outcome == DeleteReply(200) then k + 1 else |posts|;
        Posts(seq(shown, i requires 0 <= i < shown =>
                if i == k && SkipsMedia(click.outcome) then PostView(true, None) else ViewPost(posts[i])),
              AfterDelete(click.outcome))
  }

  /** Lines 182-185: the `DELETE` a click issues, which exists only for the owner's posts. */
  function DeleteRequest(p: Post): (path: Option<string>)
    ensures path.Some? <==> p.isOwner
    ensures path.Some? ==> path.value == "/posts/" + p.id
  {
    if p.isOwner then Some("/posts/" + p.id) else None
  }

  /** Lines 184-194: what a delete click leads to. */
  function AfterDelete(outcome: DeleteOutcome): (r: Auth.Feedback)
    ensures r == Auth.Rerun <==> outcome == DeleteReply(200)
  {
    match outcome
    case DeleteTransportError => Auth.Error("Failed to contact backend.")
    case DeleteReply(status) => if status == 200 then Auth.Rerun else Auth.Error("Failed to delete post!")
  }

  /** The delete button is offered exactly on one's own posts, in every view of the feed. */
  lemma DeleteOnlyForOwner(outcome: FeedOutcome, click: Click, i: nat)
    requires FeedPage(outcome, click).Posts? && i < |FeedPage(outcome, click).views|
    ensures FeedPage(outcome, click).views[i].offersDelete <==> outcome.posts[i].isOwner
    ensures FeedPage(outcome, click).views[i].offersDelete <==> DeleteRequest(outcome.posts[i]).Some?
  {
  }

  /**
   * A delete the backend refuses (lines 193-194) leaves the feed exactly as it is
   * without a click, with an error added.
   */
  lemma RefusedDeleteKeepsFeed(outcome: FeedOutcome, k: nat, status: int)
    requires status != 200
    ensures var r := FeedPage(outcome, DeleteClick(k, DeleteReply(status)));
            && (r.Posts? ==> r.views == FeedPage(outcome, NoClick).views)
            && (r.Posts? && Clicked(outcome.posts, DeleteClick(k, DeleteReply(status))) ==>
                  r.feedback == Auth.Error("Failed to delete post!"))
  {
  }

  /**
   * An image with a caption on an ImageKit-shaped URL is shown through the caption
   * overlay, whose token decodes back to the caption.
   */
  lemma CaptionedImage(p: Post)
    requires p.fileType == "image" && p.caption != ""
    requires Occurrences(p.url, '/') >= 4
    ensures var enc := Transform.EncodeTextForOverlay(p.caption);
            && ViewPost(p).media == Some(Image(Transform.BaseUrl(p.url) + "/tr:" + Transform.OverlayParams(enc) + "/" + Transform.FilePath(p.url)))
            && Transform.DecodeOverlay(enc).Some?
            && Utf8.Decode(Transform.DecodeOverlay(enc).value) == Some(p.caption)
  {
    Transform.OverlayRoundTrip(p.caption);
  }

  /**
   * An image, captioned or not, on a URL with fewer than four `/` is shown from
   * its URL as is: there is no path segment to put the overlay in.
   */
  lemma ShortUrlImage(p: Post)
    requires p.fileType == "image" && Occurrences(p.url, '/') < 4
    ensures ViewPost(p).media == Some(Image(p.url))
  {
  }

  /** An image without a caption is shown from its URL as is: no resize is applied. */
  lemma UncaptionedImage(p: Post)
    requires p.fileType == "image" && p.caption == ""
    ensures ViewPost(p).media == Some(Image(p.url))
  {
  }

  /**
   * Anything that is not an image is a video, shown with the fixed pad-and-resize
   * whatever its caption; the caption is shown as separate text.
   */
  lemma VideoIgnoresCaption(p: Post, caption: string)
    requires p.fileType != "image"
    ensures ViewPost(p.(caption := caption)).media.value.src == ViewPost(p).media.value.src
    ensures ViewPost(p).media == Some(Video(Transform.CreateTransformedUrl(p.url, VideoParams, None), p.caption))
    ensures Occurrences(p.url, '/') >= 4 ==>
              ViewPost(p).media.value.src == Transform.BaseUrl(p.url) + "/tr:" + VideoParams + "/" + Transform.FilePath(p.url)
    ensures Occurrences(p.url, '/') < 4 ==> ViewPost(p).media.value.src == p.url
  {
  }
}

=== FILE: percent.dfy ===
/**
 * Percent-encoding (RFC 3986, section 2.1) as Python's `urllib.parse.quote` does it
 * with its default `safe='/'`: the text is UTF-8 encoded, every octet that is an
 * unreserved character (RFC 3986, section 2.3) or `/` is kept, and every other
 * octet becomes `%` and two upper-case hexadecimal digits.
 */
module Percent {
  import opened Wrappers
  import Utf8

  /** ALPHA / DIGIT / "-" / "." / "_" / "~" (RFC 3986, section 2.3). */
  predicate IsUnreserved(c: char)
  {
    'A' <= c <= 'Z' || 'a' <= c <= 'z' || '0' <= c <= '9' || c == '-' || c == '.' || c == '_' || c == '~'
  }

  /** The octets `quote` leaves alone: the unreserved characters plus the default `safe='/'`. */
  predicate IsSafe(b: byte)
  {
    b < 0x80 && (IsUnreserved(b as char) || b as char == '/')
  }

  predicate IsUpperHex(c: char)
  {
    '0' <= c <= '9' || 'A' <= c <= 'F'
  }

  function HexDigit(n: int): (c: char)
    requires 0 <= n < 16
    ensures IsUpperHex(c)
  {
    if n < 10 then ('0' as int + n) as char else ('A' as int + n - 10) as char
  }

  /** Hexadecimal digit value, either case. */
  function HexValue(c: char): (r: Option<int>)
    ensures r.Some? ==> 0 <= r.value < 16
  {
    if '0' <= c <= '9' then Some(c as int - '0' as int)
    else if 'A' <= c <= 'F' then Some(c as int - 'A' as int + 10)
    else if 'a' <= c <= 'f' then Some(c as int - 'a' as int + 10)
    else None
  }

  /**
   * One octet: a safe octet is kept as the one character it codes, any other
   * becomes `%` and the two hexadecimal digits of its value.
   */
  function QuoteByte(b: byte): (s: string)
    ensures IsSafe(b) <==> |s| == 1
    ensures IsSafe(b) ==> s[0] as int == b
    ensures !IsSafe(b) ==> |s| == 3 && s[0] == '%' && IsUpperHex(s[1]) && IsUpperHex(s[2])
                           && HexValue(s[1]) == Some(b / 16) && HexValue(s[2]) == Some(b % 16)
  {
    if IsSafe(b) then [b as char] else ['%', HexDigit(b / 16), HexDigit(b % 16)]
  }

  /** `urllib.parse.quote_from_bytes(bs)`. */
  function QuoteBytes(bs: seq<byte>): (s: string)
    ensures |bs| <= |s| <= 3 * |bs|
    decreases |bs|
  {
    if bs == [] then "" else QuoteByte(bs[0]) + QuoteBytes(bs[1..])
  }

  /**
   * `urllib.parse.quote(s)`: the UTF-8 octets of `s`, percent-encoded. The result
   * is in `quote`'s output alphabet and percent-decodes to exactly those octets.
   */
  function Quote(s: string): (r: string)
    ensures IsQuoted(r)
    ensures PercentDecode(r) == Some(Utf8.Encode(s))
    ensures |s| <= |r| <= 12 * |s|
  {
    var octets := Utf8.Encode(s);
    QuoteBytesIsQuoted(octets);
    PercentDecodeQuoteBytes(octets);
    QuoteBytes(octets)
  }

  /**
   * The shape of `quote`'s output: a run of unreserved characters, `/` and
   * `%XX` triplets with upper-case digits.
   */
  predicate IsQuoted(s: string)
    decreases |s|
  {
    if s == [] then true
    else if s[0] == '%' then |s| >= 3 && IsUpperHex(s[1]) && IsUpperHex(s[2]) && IsQuoted(s[3..])
    else (IsUnreserved(s[0]) || s[0] == '/') && IsQuoted(s[1..])
  }

  /**
   * Percent-decoding (RFC 3986, section 2.1): every `%XX` triplet becomes the octet
   * it names and every other ASCII character stands for itself; `None` for a
   * malformed triplet or a character outside ASCII.
   */
  function PercentDecode(s: string): (r: Option<seq<byte>>)
    ensures r.Some? ==> |r.value| <= |s|
    decreases |s|
  {
    if s == [] then Some([])
    else if s[0] == '%' then
      if |s| < 3 then None
      else
        match (HexValue(s[1]), HexValue(s[2]), PercentDecode(s[3..]))
        case (Some(hi), Some(lo), Some(rest)) => Some([hi * 16 + lo] + rest)
        case _ => None
    else if s[0] as int < 0x80 then
      match PercentDecode(s[1..])
      case Some(rest) => Some([s[0] as int] + rest)
      case None => None
    else None
  }

  lemma PercentDecodeQuoteByte(b: byte, rest: string, tail: seq<byte>)
    requires PercentDecode(rest) == Some(tail)
    ensures PercentDecode(QuoteByte(b) + rest) == Some([b] + tail)
  {
    var s := QuoteByte(b) + rest;
    if IsSafe(b) {
      assert s[1..] == rest;
    } else {
      assert s[3..] == rest;
      assert HexValue(HexDigit(b / 16)) == Some(b / 16);
      assert HexValue(HexDigit(b % 16)) == Some(b % 16);
    }
  }

  /** Percent-decoding undoes `quote_from_bytes`. */
  lemma {:induction false} PercentDecodeQuoteBytes(bs: seq<byte>)
    ensures PercentDecode(QuoteBytes(bs)) == Some(bs)
    decreases |bs|
  {
    if bs != [] {
      PercentDecodeQuoteBytes(bs[1..]);
      PercentDecodeQuoteByte(bs[0], QuoteBytes(bs[1..]), bs[1..]);
      assert bs == [bs[0]] + bs[1..];
    }
  }

  lemma IsQuotedQuoteByte(b: byte, rest: string)
    requires IsQuoted(rest)
    ensures IsQuoted(QuoteByte(b) + rest)
  {
    var s := QuoteByte(b) + rest;
    if IsSafe(b) {
      assert s[1..] == rest;
    } else {
      assert s[3..] == rest;
    }
  }

  /** `quote_from_bytes` works octet by octet: quoting a concatenation concatenates the quotings. */
  lemma {:induction false} QuoteBytesAppend(a: seq<byte>, b: seq<byte>)
    ensures QuoteBytes(a + b) == QuoteBytes(a) + QuoteBytes(b)
    decreases |a|
  {
    if a == [] {
      assert a + b == b;
    } else {
      assert (a + b)[0] == a[0];
      assert (a + b)[1..] == a[1..] + b;
      QuoteBytesAppend(a[1..], b);
    }
  }

  /**
   * Each octet is quoted the same wherever it stands: a safe octet stays itself
   * even next to octets that are escaped, and an unsafe one is always `%XX`.
   */
  lemma QuoteBytesAt(bs: seq<byte>, i: nat)
    requires i < |bs|
    ensures QuoteBytes(bs) == QuoteBytes(bs[..i]) + QuoteByte(bs[i]) + QuoteBytes(bs[i + 1..])
  {
    SplitAt(bs, i);
    QuoteBytesAppend(bs[..i] + [bs[i]], bs[i + 1..]);
    QuoteBytesAppend(bs[..i], [bs[i]]);
    QuoteBytesOne(bs[i]);
  }

  lemma QuoteBytesOne(b: byte)
    ensures QuoteBytes([b]) == QuoteByte(b)
  {
    assert [b][1..] == [];
  }

  /** Everything `quote_from_bytes` produces is unreserved characters, `/` and `%XX`. */
  lemma {:induction false} QuoteBytesIsQuoted(bs: seq<byte>)
    ensures IsQuoted(QuoteBytes(bs))
    decreases |bs|
  {
    if bs != [] {
      QuoteBytesIsQuoted(bs[1..]);
      IsQuotedQuoteByte(bs[0], QuoteBytes(bs[1..]));
    }
  }

  /** Text made only of safe characters passes through `quote` unchanged. */
  lemma {:induction false} QuoteSafeText(s: string)
    requires forall i :: 0 <= i < |s| ==> IsUnreserved(s[i]) || s[i] == '/'
    ensures Quote(s) == s
    decreases |s|
  {
    if s != [] {
      var c, t := s[0], s[1..];
      assert s == [c] + t;
      Utf8.EncodeCons(c, t);
      QuoteSafeText(t);
      QuoteOctets(s);
      QuoteOctets(t);
      SafeCharQuoted(c, Utf8.Encode(t));
    }
  }

  /** A safe ASCII character in front of any octets is quoted as itself. */
  lemma SafeCharQuoted(c: char, rest: seq<byte>)
    requires IsUnreserved(c) || c == '/'
    ensures QuoteBytes(Utf8.EncodeChar(c) + rest) == [c] + QuoteBytes(rest)
  {
    var bs := Utf8.EncodeChar(c) + rest;
    assert Utf8.EncodeChar(c) == [c as int];
    assert bs[0] == c as int && bs[1..] == rest;
  }

  /** The base 64 symbols `quote` does touch: `+` and `=` are escaped, `/` is kept. */
  lemma QuoteBase64Specials()
    ensures Quote("+") == "%2B"
    ensures Quote("=") == "%3D"
    ensures Quote("/") == "/"
  {
    SpecialOctets();
    QuoteOctets("+");
    QuoteOctets("=");
    QuoteOctets("/");
    QuoteBytesOne(0x2B);
    QuoteBytesOne(0x3D);
    QuoteBytesOne(0x2F);
    PlusQuoted();
    EqualsQuoted();
  }

  lemma SpecialOctets()
    ensures Utf8.Encode("+") == [0x2B]
    ensures Utf8.Encode("=") == [0x3D]
    ensures Utf8.Encode("/") == [0x2F]
  {
    assert Utf8.IsAscii("+") && Utf8.IsAscii("=") && Utf8.IsAscii("/");
  }

  lemma PlusQuoted()
    ensures QuoteByte(0x2B) == "%2B"
  {
  }

  /**
   * Safe characters are kept next to escaped ones: the base 64 token `aGk=` (of
   * "hi") becomes `aGk%3D`, and `/=` becomes `/%3D`.
   */
  lemma QuoteMixedText()
    ensures Quote("aGk=") == "aGk%3D"
    ensures Quote("/=") == "/%3D"
  {
    MixedOctets();
    QuoteOctets("aGk=");
    QuoteOctets("/=");
    MixedQuoted();
  }

  lemma QuoteOctets(s: string)
    ensures Quote(s) == QuoteBytes(Utf8.Encode(s))
  {
  }

  lemma MixedOctets()
    ensures Utf8.Encode("aGk=") == [0x61, 0x47, 0x6B, 0x3D]
    ensures Utf8.Encode("/=") == [0x2F, 0x3D]
  {
    assert Utf8.IsAscii("aGk=") && Utf8.IsAscii("/=");
  }

  lemma MixedQuoted()
    ensures QuoteBytes([0x61, 0x47, 0x6B, 0x3D]) == "aGk%3D"
    ensures QuoteBytes([0x2F, 0x3D]) == "/%3D"
  {
    QuoteBytesAppend([0x61, 0x47], [0x6B, 0x3D]);
    assert [0x61, 0x47] + [0x6B, 0x3D] == [0x61, 0x47, 0x6B, 0x3D];
    PairQuoted();
  }

  lemma PairQuoted()
    ensures QuoteBytes([0x61, 0x47]) == "aG"
    ensures QuoteBytes([0x6B, 0x3D]) == "k%3D"
    ensures QuoteBytes([0x2F, 0x3D]) == "/%3D"
  {
    QuoteBytesPair(0x61, 0x47);
    QuoteBytesPair(0x6B, 0x3D);
    QuoteBytesPair(0x2F, 0x3D);
    EqualsQuoted();
  }

  lemma EqualsQuoted()
    ensures QuoteByte(0x3D) == "%3D"
  {
  }

  lemma QuoteBytesPair(a: byte, b: byte)
    ensures QuoteBytes([a, b]) == QuoteByte(a) + QuoteByte(b)
  {
    QuoteBytesAppend([a], [b]);
    QuoteBytesOne(a);
    QuoteBytesOne(b);
    assert [a] + [b] == [a, b];
  }
}

=== FILE: split.dfy ===
/**
 * Python's `str.split(sep)` and `sep.join(parts)` for a one-character separator:
 * `k` separators give `k + 1` parts, empty parts are kept, and joining puts the
 * separators back.
 */
module Split {

  /** How many times `c` occurs in `s`. */
  function Occurrences(s: string, c: char): nat
  {
    if s == [] then 0 else (if s[0] == c then 1 else 0) + Occurrences(s[1..], c)
  }

  /** `sep.join(parts)`; the empty list joins to the empty string. */
  function Join(parts: seq<string>, sep: char): (r: string)
    ensures |parts| == 0 ==> r == ""
    ensures |parts| > 0 ==> |parts[0]| <= |r| && r[..|parts[0]|] == parts[0]
    ensures |parts| > 1 ==> |parts[0]| < |r| && r[|parts[0]|] == sep
  {
    if |parts| == 0 then ""
    else if |parts| == 1 then parts[0]
    else parts[0] + [sep] + Join(parts[1..], sep)
  }

  /** `s.split(sep)`. */
  function SplitOn(s: string, sep: char): (parts: seq<string>)
    ensures |parts| == Occurrences(s, sep) + 1
    ensures forall i :: 0 <= i < |parts| ==> sep !in parts[i]
    ensures Join(parts, sep) == s
    decreases |s|
  {
    if s == [] then [""]
    else
      var rest := SplitOn(s[1..], sep);
      if s[0] == sep then [""] + rest
      else [[s[0]] + rest[0]] + rest[1..]
  }

  lemma JoinCons(a: string, rest: seq<string>, sep: char)
    requires |rest| >= 1
    ensures Join([a] + rest, sep) == a + [sep] + Join(rest, sep)
  {
    assert ([a] + rest)[1..] == rest;
  }

  lemma {:induction false} OccurrencesAppend(x: string, y: string, c: char)
    ensures Occurrences(x + y, c) == Occurrences(x, c) + Occurrences(y, c)
    decreases |x|
  {
    if x != [] {
      assert (x + y)[1..] == x[1..] + y;
      OccurrencesAppend(x[1..], y, c);
    } else {
      assert x + y == y;
    }
  }

  lemma {:induction false} OccurrencesAbsent(x: string, c: char)
    requires c !in x
    ensures Occurrences(x, c) == 0
    decreases |x|
  {
    if x != [] {
      OccurrencesAbsent(x[1..], c);
    }
  }

  lemma {:induction false} OccurrencesPresent(x: string, i: nat, c: char)
    requires i < |x| && x[i] == c
    ensures Occurrences(x, c) >= 1
    decreases i
  {
    if i > 0 {
      OccurrencesPresent(x[1..], i - 1, c);
    }
  }

  /** Joining two non-empty lists is joining their joins. */
  lemma {:induction false} JoinAppend(a: seq<string>, b: seq<string>, sep: char)
    requires |a| >= 1 && |b| >= 1
    ensures Join(a + b, sep) == Join(a, sep) + [sep] + Join(b, sep)
    decreases |a|
  {
    if |a| > 1 {
      assert (a + b)[1..] == a[1..] + b;
      JoinAppend(a[1..], b, sep);
    } else {
      assert (a + b)[1..] == b;
    }
  }

  /** A join of separator-free parts holds one separator between each two of them. */
  lemma {:induction false} OccurrencesJoin(parts: seq<string>, sep: char)
    requires |parts| >= 1
    requires forall i :: 0 <= i < |parts| ==> sep !in parts[i]
    ensures Occurrences(Join(parts, sep), sep) == |parts| - 1
    decreases |parts|
  {
    OccurrencesAbsent(parts[0], sep);
    if |parts| > 1 {
      OccurrencesJoin(parts[1..], sep);
      OccurrencesAppend(parts[0] + [sep], Join(parts[1..], sep), sep);
      OccurrencesAppend(parts[0], [sep], sep);
    }
  }

  lemma {:induction false} SplitFree(x: string, sep: char)
    requires sep !in x
    ensures SplitOn(x, sep) == [x]
    decreases |x|
  {
    if x != [] {
      SplitFree(x[1..], sep);
      assert [x[0]] + x[1..] == x;
    }
  }

  /** Splitting at the first separator. */
  lemma {:induction false} SplitFirst(x: string, y: string, sep: char)
    requires sep !in x
    ensures SplitOn(x + [sep] + y, sep) == [x] + SplitOn(y, sep)
    decreases |x|
  {
    var s := x + [sep] + y;
    if x == [] {
      assert s[1..] == y;
    } else {
      assert s[1..] == x[1..] + [sep] + y;
      SplitFirst(x[1..], y, sep);
      assert [x[0]] + x[1..] == x;
    }
  }

  /** Splitting a join of separator-free parts gives the parts back. */
  lemma {:induction false} SplitJoin(parts: seq<string>, sep: char)
    requires |parts| >= 1
    requires forall i :: 0 <= i < |parts| ==> sep !in parts[i]
    ensures SplitOn(Join(parts, sep), sep) == parts
    decreases |parts|
  {
    if |parts| == 1 {
      SplitFree(parts[0], sep);
    } else {
      SplitJoin(parts[1..], sep);
      SplitFirst(parts[0], Join(parts[1..], sep), sep);
      assert parts == [parts[0]] + parts[1..];
    }
  }
}

=== FILE: transform.dfy ===
/**
 * The CDN URL transform builder: `encode_text_for_overlay` and
 * `create_transformed_url` of app/frontend.py.
 */
module Transform {
  import opened Wrappers
  import Utf8
  import Base64
  import Percent
  import opened Split

  /** `encode_text_for_overlay(text)`: UTF-8, then base 64, then `quote`. */
  function EncodeTextForOverlay(text: string): (enc: string)
    ensures text == "" <==> enc == ""
  {
    if text == "" then ""
    else Percent.Quote(Base64.Encode(Utf8.Encode(text)))
  }

  /** The fixed text-overlay template a caption is embedded in (line 63). */
  function OverlayParams(enc: string): (p: string)
    ensures |p| == |enc| + 57
    ensures p[..10] == "l-text,ie-" && p[10..10 + |enc|] == enc && p[|p| - 6..] == ",l-end"
  {
    "l-text,ie-" + enc + ",ly-N20,lx-20,fs-100,co-white,bg-000000A0,l-end"
  }

  /**
   * Lines 61-64, the parameters actually used: a non-empty caption replaces the
   * caller's with the overlay template, which is never empty; otherwise the
   * caller's are used as given.
   */
  function EffectiveParams(transformationParams: string, caption: Option<string>): (p: string)
    ensures Truthy(caption) ==> |p| >= 57 && p[..10] == "l-text,ie-" && p[|p| - 6..] == ",l-end"
    ensures !Truthy(caption) ==> p == transformationParams
  {
    if Truthy(caption) then OverlayParams(EncodeTextForOverlay(caption.value))
    else transformationParams
  }

  /**
   * `"/".join(parts[:4])` of the split URL: the prefix before the fourth `/`
   * (scheme, empty authority part, host, endpoint id).
   */
  function BaseUrl(url: string): (base: string)
    requires Occurrences(url, '/') >= 4
    ensures |base| < |url| && url[..|base|] == base && url[|base|] == '/'
    ensures Occurrences(base, '/') == 3
  {
    var parts := SplitOn(url, '/');
    SplitHalves(url);
    Join(parts[..4], '/')
  }

  /** `"/".join(parts[4:])`: everything after the fourth `/`. */
  function FilePath(url: string): (file: string)
    requires Occurrences(url, '/') >= 4
    ensures BaseUrl(url) + "/" + file == url
  {
    var parts := SplitOn(url, '/');
    SplitHalves(url);
    Join(parts[4..], '/')
  }

  /** The two halves of a split URL, joined, with the `/` between them, are the URL. */
  lemma SplitHalves(url: string)
    requires Occurrences(url, '/') >= 4
    ensures var parts := SplitOn(url, '/');
            var base, file := Join(parts[..4], '/'), Join(parts[4..], '/');
            && base + "/" + file == url
            && Occurrences(base, '/') == 3
  {
    var parts := SplitOn(url, '/');
    assert parts == parts[..4] + parts[4..];
    JoinAppend(parts[..4], parts[4..], '/');
    OccurrencesJoin(parts[..4], '/');
  }

  /**
   * `create_transformed_url(original_url, transformation_params, caption)`: with
   * non-empty effective parameters and at least four `/`, the URL with
   * `tr:<params>/` inserted just after its fourth `/`; otherwise the URL itself.
   */
  function CreateTransformedUrl(originalUrl: string, transformationParams: string, caption: Option<string>): (r: string)
    ensures EffectiveParams(transformationParams, caption) != "" && Occurrences(originalUrl, '/') >= 4 ==>
              r == originalUrl[..Cut(originalUrl)] + "tr:" + EffectiveParams(transformationParams, caption)
                   + "/" + originalUrl[Cut(originalUrl)..]
    ensures EffectiveParams(transformationParams, caption) == "" || Occurrences(originalUrl, '/') < 4 ==>
              r == originalUrl
  {
    var params := EffectiveParams(transformationParams, caption);
    if params == "" then originalUrl
    else
      var parts := SplitOn(originalUrl, '/');
      if |parts| < 5 then originalUrl
      else
        // parts[3] (the endpoint id) is read by the source but never used.
        AfterFourthSlash(originalUrl);
        BaseUrl(originalUrl) + "/tr:" + params + "/" + FilePath(originalUrl)
  }

  /** The position just after the fourth `/` of the URL. */
  function Cut(url: string): (k: nat)
    requires Occurrences(url, '/') >= 4
    ensures 0 < k <= |url| && url[k - 1] == '/' && Occurrences(url[..k - 1], '/') == 3
  {
    |BaseUrl(url)| + 1
  }

  /** Base and file path are the URL cut just after its fourth `/`. */
  lemma AfterFourthSlash(url: string)
    requires Occurrences(url, '/') >= 4
    ensures url[..Cut(url)] == BaseUrl(url) + "/" && url[Cut(url)..] == FilePath(url)
  {
    var base, file := BaseUrl(url), FilePath(url);
    assert url == (base + "/") + file;
  }

  /** Undoes the overlay encoding: percent-decode, read the ASCII text, base 64 decode. */
  function DecodeOverlay(enc: string): Option<seq<byte>>
  {
    match Percent.PercentDecode(enc)
    case None => None
    case Some(octets) =>
      match Utf8.Decode(octets)
      case None => None
      case Some(b64) => Base64.Decode(b64)
  }

  /**
   * The overlay token of a non-empty caption decodes back to the caption's UTF-8
   * octets, and from them to the caption itself; it holds only unreserved
   * characters, `/` and `%XX` triplets.
   */
  lemma OverlayRoundTrip(caption: string)
    requires caption != ""
    ensures DecodeOverlay(EncodeTextForOverlay(caption)) == Some(Utf8.Encode(caption))
    ensures Utf8.Decode(DecodeOverlay(EncodeTextForOverlay(caption)).value) == Some(caption)
    ensures Percent.IsQuoted(EncodeTextForOverlay(caption))
  {
    var octets := Utf8.Encode(caption);
    var b64 := Base64.Encode(octets);
    var b64Octets := Utf8.Encode(b64);
    Percent.PercentDecodeQuoteBytes(b64Octets);
    Utf8.DecodeEncode(b64);
    Base64.DecodeEncode(octets);
    Utf8.DecodeEncode(caption);
    Percent.QuoteBytesIsQuoted(b64Octets);
  }

  /**
   * With at least four `/`, a `tr:<params>` segment is spliced in just after the
   * fourth `/`: deleting it gives the URL back.
   */
  lemma SpliceAfterFourthSlash(url: string, params: string, caption: Option<string>)
    requires EffectiveParams(params, caption) != ""
    requires Occurrences(url, '/') >= 4
    ensures var r := CreateTransformedUrl(url, params, caption);
            var p := EffectiveParams(params, caption);
            var base := url[..|BaseUrl(url)|];
            && Occurrences(base, '/') == 3
            && url == base + "/" + url[|base| + 1..]
            && r == base + "/tr:" + p + "/" + url[|base| + 1..]
  {
    var p, b := EffectiveParams(params, caption), BaseUrl(url);
    AfterFourthSlash(url);
    SpliceShape(url, b, p, CreateTransformedUrl(url, params, caption));
  }

  /** The string algebra behind the splice, apart from how the cut point is found. */
  lemma SpliceShape(url: string, b: string, p: string, r: string)
    requires |b| < |url| && url[..|b| + 1] == b + "/"
    requires r == url[..|b| + 1] + "tr:" + p + "/" + url[|b| + 1..]
    ensures url[..|b|] == b
    ensures url == b + "/" + url[|b| + 1..]
    ensures r == b + "/tr:" + p + "/" + url[|b| + 1..]
  {
    var k := |b| + 1;
    assert url[..|b|] == url[..k][..|b|];
    assert url == url[..k] + url[k..];
  }

  /**
   * The result holds the URL's `/`, one more closing the new segment, and any the
   * parameters bring: a parameter string with a `/` spreads over several path
   * segments.
   */
  lemma SpliceSlashCount(url: string, params: string, caption: Option<string>)
    requires EffectiveParams(params, caption) != ""
    requires Occurrences(url, '/') >= 4
    ensures Occurrences(CreateTransformedUrl(url, params, caption), '/')
            == Occurrences(url, '/') + 1 + Occurrences(EffectiveParams(params, caption), '/')
  {
    var p := EffectiveParams(params, caption);
    var base, file := BaseUrl(url), FilePath(url);
    OccurrencesAppend(base + "/", file, '/');
    OccurrencesAppend(base, "/", '/');
    OccurrencesAppend(base + "/tr:" + p + "/", file, '/');
    OccurrencesAppend(base + "/tr:" + p, "/", '/');
    OccurrencesAppend(base + "/tr:", p, '/');
    OccurrencesAppend(base, "/tr:", '/');
    SlashLiterals();
  }

  lemma SlashLiterals()
    ensures Occurrences("/", '/') == 1
    ensures Occurrences("/tr:", '/') == 1
  {
    assert "/"[1..] == [];
    assert "/tr:"[1..] == "tr:";
    OccurrencesAbsent("tr:", '/');
  }

  /** Fewer than four `/` (fewer than five parts): the URL comes back unchanged. */
  lemma ShortUrlUnchanged(url: string, params: string, caption: Option<string>)
    requires Occurrences(url, '/') < 4
    ensures CreateTransformedUrl(url, params, caption) == url
  {
  }

  /** No caption and no parameters: the URL comes back unchanged. */
  lemma EmptyParamsUnchanged(url: string, caption: Option<string>)
    requires !Truthy(caption)
    ensures CreateTransformedUrl(url, "", caption) == url
  {
  }

  /** A non-empty caption overrides whatever parameters the caller passed. */
  lemma CaptionOverridesParams(url: string, params1: string, params2: string, caption: string)
    requires caption != ""
    ensures CreateTransformedUrl(url, params1, Some(caption)) == CreateTransformedUrl(url, params2, Some(caption))
    ensures EffectiveParams(params1, Some(caption))
            == "l-text,ie-" + EncodeTextForOverlay(caption) + ",ly-N20,lx-20,fs-100,co-white,bg-000000A0,l-end"
  {
  }

  lemma QuestionMarksToken()
    ensures EncodeTextForOverlay("???") == "Pz8/"
  {
    calc {
      EncodeTextForOverlay("???");
      Percent.Quote(Base64.Encode(Utf8.Encode("???")));
      { QuestionMarksOctets(); }
      Percent.Quote(Base64.Encode([63, 63, 63]));
      { QuestionMarksBase64(); }
      Percent.Quote("Pz8/");
      { QuestionMarksQuoted(); }
      "Pz8/";
    }
  }

  lemma QuestionMarksQuoted()
    ensures Percent.Quote("Pz8/") == "Pz8/"
  {
    var t := "Pz8/";
    assert t[0] == 'P' && t[1] == 'z' && t[2] == '8' && t[3] == '/';
    assert forall i :: 0 <= i < |t| ==> Percent.IsUnreserved(t[i]) || t[i] == '/';
    Percent.QuoteSafeText(t);
  }

  lemma QuestionMarksOctets()
    ensures Utf8.Encode("???") == [63, 63, 63]
  {
    assert Utf8.IsAscii("???");
  }

  lemma QuestionMarksBase64()
    ensures Base64.Encode([63, 63, 63]) == "Pz8/"
  {
    var bs: seq<byte> := [63, 63, 63];
    assert bs[3..] == [];
    assert Base64.Encode(bs) == Base64.Group(63, 63, 63);
    QuestionMarksGroup();
  }

  lemma QuestionMarksGroup()
    ensures Base64.Group(63, 63, 63) == "Pz8/"
  {
    assert Base64.Symbol(15) == 'P' && Base64.Symbol(51) == 'z';
    assert Base64.Symbol(60) == '8' && Base64.Symbol(63) == '/';
  }


  /**
   * `quote` keeps `/`, so a caption whose base 64 form holds a `/` gives a token
   * with a `/` in it: "???" is base 64 "Pz8/", and on a CDN-shaped URL the
   * overlay parameters then spread over two path segments.
   */
  lemma OverlayTokenMayHoldSlash(url: string)
    requires Occurrences(url, '/') >= 4
    ensures EncodeTextForOverlay("???") == "Pz8/"
    ensures Occurrences(CreateTransformedUrl(url, "", Some("???")), '/') >= Occurrences(url, '/') + 2
  {
    QuestionMarksToken();
    var p := EffectiveParams("", Some("???"));
    assert p == OverlayParams("Pz8/");
    OverlayParamsSlash("Pz8/", 3);
    SpliceSlashCount(url, "", Some("???"));
  }

  /** A `/` in the token is a `/` in the overlay parameters. */
  lemma OverlayParamsSlash(enc: string, i: nat)
    requires i < |enc| && enc[i] == '/'
    ensures Occurrences(OverlayParams(enc), '/') >= 1
  {
    var p := OverlayParams(enc);
    assert p[10 + i] == '/';
    OccurrencesPresent(p, 10 + i, '/');
  }

  /**
   * On a URL of the CDN shape `scheme://host/id/path...`, split as `head` (scheme,
   * empty part, host, id) and `path`, the segment lands right after the id and the
   * path keeps all its own `/`.
   */
  lemma CdnShapedUrl(head: seq<string>, path: seq<string>, params: string)
    requires params != "" && |head| == 4 && |path| >= 1
    requires forall i :: 0 <= i < |head| ==> '/' !in head[i]
    requires forall i :: 0 <= i < |path| ==> '/' !in path[i]
    ensures CreateTransformedUrl(Join(head + path, '/'), params, None)
            == Join(head, '/') + "/tr:" + params + "/" + Join(path, '/')
  {
    var parts := head + path;
    SlashFreeAppend(head, path);
    SplitJoin(parts, '/');
    assert parts[..4] == head && parts[4..] == path;
  }

  lemma SlashFreeAppend(a: seq<string>, b: seq<string>)
    requires forall i :: 0 <= i < |a| ==> '/' !in a[i]
    requires forall i :: 0 <= i < |b| ==> '/' !in b[i]
    ensures forall i :: 0 <= i < |a + b| ==> '/' !in (a + b)[i]
  {
  }

  lemma ExampleJoins()
    ensures Join(["https:", "", "ik.io", "abc"] + ["d", "e.jpg"], '/') == "https://ik.io/abc/d/e.jpg"
    ensures Join(["https:", "", "ik.io", "abc"], '/') == "https://ik.io/abc"
    ensures Join(["d", "e.jpg"], '/') == "d/e.jpg"
  {
    JoinAppend(["https:", "", "ik.io", "abc"], ["d", "e.jpg"], '/');
    ExampleBaseJoin();
    ExamplePathJoin();
    ExampleText();
  }

  lemma ExampleBaseJoin()
    ensures Join(["https:", "", "ik.io", "abc"], '/') == "https://ik.io/abc"
  {
    assert Join(["abc"], '/') == "abc";
    assert ["ik.io", "abc"][1..] == ["abc"];
    assert Join(["ik.io", "abc"], '/') == "ik.io/abc";
    assert ["", "ik.io", "abc"][1..] == ["ik.io", "abc"];
    assert Join(["", "ik.io", "abc"], '/') == "/ik.io/abc";
    assert ["https:", "", "ik.io", "abc"][1..] == ["", "ik.io", "abc"];
  }

  lemma ExamplePathJoin()
    ensures Join(["d", "e.jpg"], '/') == "d/e.jpg"
  {
    assert ["d", "e.jpg"][1..] == ["e.jpg"];
  }

  lemma ExampleText()
    ensures "https://ik.io/abc" + "/tr:" + "w-10" + "/" + "d/e.jpg" == "https://ik.io/abc/tr:w-10/d/e.jpg"
    ensures "https://ik.io/abc" + ['/'] + "d/e.jpg" == "https://ik.io/abc/d/e.jpg"
  {
  }

  /** The worked example: `w-10` on `https://ik.io/abc/d/e.jpg`. */
  lemma Example()
    ensures CreateTransformedUrl("https://ik.io/abc/d/e.jpg", "w-10", None) == "https://ik.io/abc/tr:w-10/d/e.jpg"
  {
    ExampleJoins();
    CdnShapedUrl(["https:", "", "ik.io", "abc"], ["d", "e.jpg"], "w-10");
    ExampleText();
  }
}

=== FILE: utf8.dfy ===
/**
 * UTF-8 (RFC 3629, section 3) over Unicode scalar values: the `text.encode('utf-8')`
 * step of the overlay encoder and of `urllib.parse.quote`, with a validating decoder
 * as its inverse.
 */
module Utf8 {
  import opened Wrappers

  /** Number of octets section 3 of RFC 3629 uses for a character. */
  function Width(c: char): nat
  {
    if c as int < 0x80 then 1
    else if c as int < 0x800 then 2
    else if c as int < 0x10000 then 3
    else 4
  }

  predicate IsContinuation(b: byte)
  {
    0x80 <= b < 0xC0
  }

  /** The octets of one character: a lead octet followed by continuation octets. */
  function EncodeChar(c: char): (bs: seq<byte>)
    ensures |bs| == Width(c)
    ensures !IsContinuation(bs[0])
    ensures forall i :: 1 <= i < |bs| ==> IsContinuation(bs[i])
    ensures c as int < 0x80 <==> bs == [c as int]
  {
    var v := c as int;
    if v < 0x80 then [v]
    else if v < 0x800 then [0xC0 + v / 64, 0x80 + v % 64]
    else if v < 0x10000 then [0xE0 + v / 4096, 0x80 + (v / 64) % 64, 0x80 + v % 64]
    else [0xF0 + v / 262144, 0x80 + (v / 4096) % 64, 0x80 + (v / 64) % 64, 0x80 + v % 64]
  }

  predicate IsAscii(s: string)
  {
    forall i :: 0 <= i < |s| ==> s[i] as int < 0x80
  }

  /** `s.encode('utf-8')`. */
  function Encode(s: string): (bs: seq<byte>)
    ensures |s| <= |bs| <= 4 * |s|
    ensures IsAscii(s) ==> |bs| == |s| && forall i :: 0 <= i < |s| ==> bs[i] == s[i] as int
  {
    if s == [] then [] else EncodeChar(s[0]) + Encode(s[1..])
  }

  /** Scalar value test: what may become a `char`. */
  predicate IsScalar(v: int)
  {
    (0 <= v < 0xD800) || (0xE000 <= v < 0x110000)
  }

  /**
   * Decodes the first character of `bs`, returning it and the number of octets it
   * used; rejects truncated sequences, stray continuation octets, overlong forms,
   * surrogates and values above U+10FFFF (RFC 3629, sections 3 and 4).
   */
  function DecodeFirst(bs: seq<byte>): (r: Option<(char, nat)>)
    ensures r.Some? ==> 1 <= r.value.1 <= |bs| && r.value.1 <= 4
  {
    if |bs| == 0 then None
    else
      var b0: int := bs[0];
      if b0 < 0x80 then Some((b0 as char, 1))
      else if 0xC0 <= b0 < 0xE0 then
        if |bs| < 2 || !IsContinuation(bs[1]) then None
        else
          var v: int := (b0 - 0xC0) * 64 + (bs[1] as int - 0x80);
          if v < 0x80 then None else Some((v as char, 2))
      else if 0xE0 <= b0 < 0xF0 then
        if |bs| < 3 || !IsContinuation(bs[1]) || !IsContinuation(bs[2]) then None
        else
          var v: int := (b0 - 0xE0) * 4096 + (bs[1] as int - 0x80) * 64 + (bs[2] as int - 0x80);
          if v < 0x800 || !IsScalar(v) then None else Some((v as char, 3))
      else if 0xF0 <= b0 < 0xF8 then
        if |bs| < 4 || !IsContinuation(bs[1]) || !IsContinuation(bs[2]) || !IsContinuation(bs[3]) then None
        else
          var v: int := (b0 - 0xF0) * 262144 + (bs[1] as int - 0x80) * 4096 + (bs[2] as int - 0x80) * 64 + (bs[3] as int - 0x80);
          if v < 0x10000 || !IsScalar(v) then None else Some((v as char, 4))
      else None
  }

  /** `bs.decode('utf-8')` in strict mode: `None` where Python raises. */
  function Decode(bs: seq<byte>): (r: Option<string>)
    ensures r.Some? ==> |r.value| <= |bs|
    decreases |bs|
  {
    if bs == [] then Some([])
    else
      match DecodeFirst(bs)
      case None => None
      case Some((c, n)) =>
        match Decode(bs[n..])
        case None => None
        case Some(rest) => Some([c] + rest)
  }

  lemma DecodeFirstEncodeChar(c: char, rest: seq<byte>)
    ensures DecodeFirst(EncodeChar(c) + rest) == Some((c, Width(c)))
  {
    var v := c as int;
    if v < 0x80 {
    } else if v < 0x800 {
      EncodeTwoDecodes(c, rest);
    } else if v < 0x10000 {
      EncodeThreeDecodes(c, rest);
    } else {
      EncodeFourDecodes(c, rest);
    }
  }

  lemma EncodeTwoDecodes(c: char, rest: seq<byte>)
    requires 0x80 <= c as int < 0x800
    ensures DecodeFirst(EncodeChar(c) + rest) == Some((c, 2))
  {
    var v := c as int;
    assert v == (v / 64) * 64 + v % 64;
  }

  lemma EncodeThreeDecodes(c: char, rest: seq<byte>)
    requires 0x800 <= c as int < 0x10000
    ensures DecodeFirst(EncodeChar(c) + rest) == Some((c, 3))
  {
    var v := c as int;
    assert v / 64 == (v / 4096) * 64 + (v / 64) % 64;
    assert v == (v / 64) * 64 + v % 64;
  }

  lemma EncodeFourDecodes(c: char, rest: seq<byte>)
    requires 0x10000 <= c as int
    ensures DecodeFirst(EncodeChar(c) + rest) == Some((c, 4))
  {
    var v := c as int;
    assert v / 4096 == (v / 262144) * 64 + (v / 4096) % 64;
    assert v / 64 == (v / 4096) * 64 + (v / 64) % 64;
    assert v == (v / 64) * 64 + v % 64;
  }

  /** Decoding what `Encode` produced gives the string back. */
  lemma {:induction false} DecodeEncode(s: string)
    ensures Decode(Encode(s)) == Some(s)
  {
    if s != [] {
      var bs := Encode(s);
      assert bs == EncodeChar(s[0]) + Encode(s[1..]);
      DecodeFirstEncodeChar(s[0], Encode(s[1..]));
      assert bs[Width(s[0])..] == Encode(s[1..]);
      DecodeEncode(s[1..]);
      assert [s[0]] + s[1..] == s;
    }
  }

  /** Splitting a number into six low bits and the rest. */
  lemma Sextet(q: int, r: int)
    requires 0 <= q && 0 <= r < 64
    ensures (q * 64 + r) / 64 == q && (q * 64 + r) % 64 == r
  {
  }

  lemma EncodeCharDecodeFirst(bs: seq<byte>)
    requires DecodeFirst(bs).Some?
    ensures EncodeChar(DecodeFirst(bs).value.0) == bs[..DecodeFirst(bs).value.1]
  {
    var b0: int := bs[0];
    if b0 < 0x80 {
    } else if 0xC0 <= b0 < 0xE0 {
      TwoReencodes(bs);
    } else if 0xE0 <= b0 < 0xF0 {
      ThreeReencodes(bs);
    } else {
      FourReencodes(bs);
    }
  }

  lemma TwoReencodes(bs: seq<byte>)
    requires DecodeFirst(bs).Some? && 0xC0 <= bs[0] < 0xE0
    ensures EncodeChar(DecodeFirst(bs).value.0) == bs[..2]
  {
    var q, r := bs[0] as int - 0xC0, bs[1] as int - 0x80;
    Sextet(q, r);
    var v := q * 64 + r;
    assert DecodeFirst(bs) == Some((v as char, 2));
    assert EncodeChar(v as char) == [0xC0 + q, 0x80 + r];
  }

  lemma ThreeReencodes(bs: seq<byte>)
    requires DecodeFirst(bs).Some? && 0xE0 <= bs[0] < 0xF0
    ensures EncodeChar(DecodeFirst(bs).value.0) == bs[..3]
  {
    var q, r1, r2 := bs[0] as int - 0xE0, bs[1] as int - 0x80, bs[2] as int - 0x80;
    var hi := q * 64 + r1;
    var v := hi * 64 + r2;
    Sextet(hi, r2);
    Sextet(q, r1);
    assert v / 4096 == (v / 64) / 64;
    assert v == q * 4096 + r1 * 64 + r2;
    assert DecodeFirst(bs) == Some((v as char, 3));
    assert EncodeChar(v as char) == [0xE0 + q, 0x80 + r1, 0x80 + r2];
  }

  lemma FourReencodes(bs: seq<byte>)
    requires DecodeFirst(bs).Some? && 0xF0 <= bs[0]
    ensures EncodeChar(DecodeFirst(bs).value.0) == bs[..4]
  {
    var q, r1, r2, r3 := bs[0] as int - 0xF0, bs[1] as int - 0x80, bs[2] as int - 0x80, bs[3] as int - 0x80;
    var hi := q * 64 + r1;
    var mid := hi * 64 + r2;
    var v := mid * 64 + r3;
    Sextet(q, r1);
    Sextet(hi, r2);
    Sextet(mid, r3);
    assert v / 4096 == (v / 64) / 64;
    assert v / 262144 == ((v / 64) / 64) / 64;
    assert v == q * 262144 + r1 * 4096 + r2 * 64 + r3;
    assert DecodeFirst(bs) == Some((v as char, 4));
    assert EncodeChar(v as char) == [0xF0 + q, 0x80 + r1, 0x80 + r2, 0x80 + r3];
  }

  /** Encoding works character by character. */
  lemma EncodeCons(c: char, t: string)
    ensures Encode([c] + t) == EncodeChar(c) + Encode(t)
  {
    assert ([c] + t)[0] == c && ([c] + t)[1..] == t;
  }

  /** A successful decode is the first character followed by the decode of the rest. */
  lemma DecodeStep(bs: seq<byte>)
    requires bs != [] && Decode(bs).Some?
    ensures DecodeFirst(bs).Some?
    ensures var n := DecodeFirst(bs).value.1;
            Decode(bs[n..]).Some? && Decode(bs).value == [DecodeFirst(bs).value.0] + Decode(bs[n..]).value
  {
  }

  /** The decoder accepts only canonical encodings: re-encoding gives the input back. */
  lemma {:induction false} EncodeDecode(bs: seq<byte>)
    requires Decode(bs).Some?
    ensures Encode(Decode(bs).value) == bs
    decreases |bs|
  {
    if bs != [] {
      DecodeStep(bs);
      var (c, n) := DecodeFirst(bs).value;
      var tail := Decode(bs[n..]).value;
      EncodeCharDecodeFirst(bs);
      EncodeDecode(bs[n..]);
      EncodeCons(c, tail);
      calc {
        Encode(Decode(bs).value);
        Encode([c] + tail);
        EncodeChar(c) + Encode(tail);
        bs[..n] + bs[n..];
        { TakeDrop(bs, n); }
        bs;
      }
    }
  }
}

=== FILE: view.dfy ===
/**
 * The top-level flow of app/frontend.py: one run of the script restores the
 * token, runs the guarded check, picks the screen, and handles the button the
 * user pressed. Streamlit reruns the whole script on every interaction, so a
 * session's history is a sequence of such runs.
 */
module View {
  import opened Wrappers
  import opened Auth

  /** The sidebar radio of line 227: the feed tab or the upload tab. */
  datatype Page = FeedTab | UploadTab

  datatype Screen = LoginScreen | Shell(email: string, page: Page)

  /** Lines 213-232: the login page exactly when no user is known, else the shell with the chosen page. */
  function SelectScreen(s: Session, page: Page): (screen: Screen)
    ensures screen.LoginScreen? <==> s.user.None?
    ensures screen.Shell? ==> screen.email == s.user.value.email && screen.page == page
  {
    if s.user.None? then LoginScreen else Shell(s.user.value.email, page)
  }

  /** The button pressed during a run, with the backend's answers to the calls it makes. */
  datatype Action =
    | Idle
    | PressLogin(email: string, password: string, login: LoginOutcome, me: MeOutcome)
    | PressSignup(email: string, password: string, signup: SignupOutcome)
    | PressLogout

  /** One run's inputs: the answer the top-level `/users/me` call would get, the sidebar choice, the button. */
  datatype Input = Input(me: MeOutcome, page: Page, action: Action)

  /** One run's result; `verified` records whether the top-level `/users/me` call was made. */
  datatype Run = Run(session: Session, screen: Screen, verified: bool, feedback: Feedback)

  /**
   * The whole script once, top to bottom. Login and Sign Up exist only on the
   * login page, Logout only in the shell; a press elsewhere has no handler.
   */
  function RunScript(s: Session, input: Input): (r: Run)
    // The check runs when no user is known, none has failed, and a truthy token is held or in the address bar.
    ensures r.verified <==> s.user.None? && !s.lastTokenCheckFailed
                            && (HasToken(s) || Truthy(s.queryToken))
    ensures s.lastTokenCheckFailed ==> r.session.lastTokenCheckFailed
    // A check shows the shell only when it returned a user; without a check the known user decides.
    ensures r.verified && input.me.Reply? && input.me.status == 200 && input.me.body.Some? ==>
              r.screen == Shell(input.me.body.value.email, input.page)
    ensures r.verified && !(input.me.Reply? && input.me.status == 200 && input.me.body.Some?) ==>
              r.screen == LoginScreen
    ensures !r.verified ==> r.screen == SelectScreen(s, input.page)
  {
    var restored := Restore(s);
    var checked := Reconcile(restored, input.me);
    var screen := SelectScreen(checked, input.page);
    match input.action
    case Idle => Run(checked, screen, ShouldVerify(restored), Quiet)
    case PressLogin(email, password, login, me) =>
      if screen.LoginScreen? then
        var step := Login(checked, email, password, login, me);
        Run(step.session, screen, ShouldVerify(restored), step.feedback)
      else Run(checked, screen, ShouldVerify(restored), Quiet)
    case PressSignup(email, password, signup) =>
      if screen.LoginScreen? then
        var step := Signup(checked, email, password, signup);
        Run(step.session, screen, ShouldVerify(restored), step.feedback)
      else Run(checked, screen, ShouldVerify(restored), Quiet)
    case PressLogout =>
      if screen.Shell? then
        var step := Logout(checked);
        Run(step.session, screen, ShouldVerify(restored), step.feedback)
      else Run(checked, screen, ShouldVerify(restored), Quiet)
  }

  /** The session after a sequence of runs. */
  function Replay(s: Session, inputs: seq<Input>): Session
    decreases |inputs|
  {
    if inputs == [] then s else Replay(RunScript(s, inputs[0]).session, inputs[1..])
  }

  /** How many of those runs called `/users/me` at the top level. */
  function Checks(s: Session, inputs: seq<Input>): nat
    decreases |inputs|
  {
    if inputs == [] then 0
    else (if RunScript(s, inputs[0]).verified then 1 else 0) + Checks(RunScript(s, inputs[0]).session, inputs[1..])
  }

  /**
   * Once a check has failed in a session, no later run calls `/users/me` at the
   * top level again, whatever happens meanwhile (a later login included), and the
   * flag stays set.
   */
  lemma {:induction false} FailedCheckIsFinal(s: Session, inputs: seq<Input>)
    requires s.lastTokenCheckFailed
    ensures Checks(s, inputs) == 0
    ensures Replay(s, inputs).lastTokenCheckFailed
    decreases |inputs|
  {
    if inputs != [] {
      FailedCheckIsFinal(RunScript(s, inputs[0]).session, inputs[1..]);
    }
  }

  /**
   * A start-up token that the backend rejects: the run checks once, drops the
   * token from state and address bar, shows the login page, and no later run
   * checks again.
   */
  lemma RejectedStartupToken(t: string, status: int, body: Option<User>, page: Page, later: seq<Input>)
    requires t != "" && status != 200
    ensures var r := RunScript(Start(Some(t)), Input(Reply(status, body), page, Idle));
            && r.verified
            && r.session == Session(None, None, true, None)
            && r.screen == LoginScreen
            && Checks(r.session, later) == 0
  {
    var r := RunScript(Start(Some(t)), Input(Reply(status, body), page, Idle));
    FailedCheckIsFinal(r.session, later);
  }

  /**
   * A start-up token that the backend accepts: the run checks once, keeps the
   * token in state and address bar, records the user and shows the shell.
   */
  lemma AcceptedStartupToken(t: string, u: User, page: Page)
    requires t != ""
    ensures var r := RunScript(Start(Some(t)), Input(Reply(200, Some(u)), page, Idle));
            && r.verified
            && r.session == Session(Some(t), Some(u), false, Some(t))
            && r.screen == Shell(u.email, page)
  {
  }

  /** A start-up check that cannot reach the backend keeps the token but is not retried. */
  lemma UnreachableAtStartup(t: string, page: Page, later: seq<Input>)
    requires t != ""
    ensures var r := RunScript(Start(Some(t)), Input(TransportError, page, Idle));
            && r.verified
            && r.session == Session(Some(t), None, true, Some(t))
            && r.screen == LoginScreen
            && Checks(r.session, later) == 0
  {
    var r := RunScript(Start(Some(t)), Input(TransportError, page, Idle));
    FailedCheckIsFinal(r.session, later);
  }

  /** After Logout the next run shows the login page without calling the backend. */
  lemma LogoutThenLoginPage(s: Session, me: MeOutcome, page: Page, next: Input)
    requires s.user.Some?
    ensures var r := RunScript(s, Input(me, page, PressLogout));
            var n := RunScript(r.session, next);
            && r.feedback == Rerun
            && n.screen == LoginScreen && !n.verified
            && n.session.lastTokenCheckFailed == s.lastTokenCheckFailed
  {
  }

  /**
   * A successful login stores the token in state and address bar and the user;
   * the rerun that follows shows the shell for that user without a new check.
   */
  lemma LoginThenShell(s: Session, me: MeOutcome, page: Page, email: string, password: string,
                       t: string, u: User, next: Input)
    requires Reconcile(Restore(s), me).user.None?
    requires email != "" && password != ""
    ensures var r := RunScript(s, Input(me, page, PressLogin(email, password, LoginReply(200, Some(t)), Reply(200, Some(u)))));
            var n := RunScript(r.session, next);
            && r.screen == LoginScreen
            && r.session.user == Some(u) && r.session.token == Some(t) && r.session.queryToken == Some(t)
            && r.feedback == Rerun
            && n.screen == Shell(u.email, next.page) && !n.verified
  {
  }

  /**
   * Login's own `/users/me` refuses: token and address bar keep the new token with
   * no user, so the next run checks again unless a check has failed in this
   * session, in which case it stays on the login page.
   */
  lemma LoginUserFetchRefused(s: Session, me: MeOutcome, page: Page, email: string, password: string,
                              t: string, status: int, body: Option<User>, next: Input)
    requires Reconcile(Restore(s), me).user.None?
    requires email != "" && password != "" && t != "" && status != 200
    ensures var r := RunScript(s, Input(me, page, PressLogin(email, password, LoginReply(200, Some(t)), Reply(status, body))));
            var n := RunScript(r.session, next);
            && r.feedback == Error("Failed to get user info")
            && r.session.token == Some(t) && r.session.queryToken == Some(t) && r.session.user.None?
            && (n.verified <==> !r.session.lastTokenCheckFailed)
            && (s.lastTokenCheckFailed ==> !n.verified && n.screen == LoginScreen)
  {
  }

  /**
   * The token a refused user fetch left behind is checked by the next run when no
   * check has failed yet; if the backend refuses it there too, token, user and
   * address bar are wiped and the flag is set.
   */
  lemma RefusedLoginThenRejected(s: Session, me: MeOutcome, page: Page, email: string, password: string,
                                 t: string, status: int, body: Option<User>,
                                 status2: int, body2: Option<User>, page2: Page)
    requires Reconcile(Restore(s), me).user.None? && !Reconcile(Restore(s), me).lastTokenCheckFailed
    requires email != "" && password != "" && t != "" && status != 200 && status2 != 200
    ensures var r := RunScript(s, Input(me, page, PressLogin(email, password, LoginReply(200, Some(t)), Reply(status, body))));
            var n := RunScript(r.session, Input(Reply(status2, body2), page2, Idle));
            && n.verified
            && n.session == Session(None, None, true, None)
            && n.screen == LoginScreen
  {
  }
}

=== FILE: wrappers.dfy ===
/** Small shared vocabulary: optional values and bytes. */
module Wrappers {

  /** Python's `None` / a present value. */
  datatype Option<+T> = None | Some(value: T)

  /** An octet, as produced by `str.encode` and consumed by `base64.b64encode`. */
  type byte = x: int | 0 <= x < 256

  /** Python truthiness of an optional string: present and non-empty. */
  predicate Truthy(s: Option<string>)
  {
    s.Some? && s.value != ""
  }

  /** Cutting a sequence at `n` and gluing the halves gives it back. */
  lemma TakeDrop<T>(s: seq<T>, n: nat)
    requires n <= |s|
    ensures s[..n] + s[n..] == s
  {
  }

  /** A sequence is what comes before element `i`, that element, and what follows it. */
  lemma SplitAt<T>(s: seq<T>, i: nat)
    requires i < |s|
    ensures s == s[..i] + [s[i]] + s[i + 1..]
  {
  }

  /** A sequence of at least three elements is its first three, then the rest. */
  lemma SplitThree<T>(s: seq<T>)
    requires |s| >= 3
    ensures s == [s[0], s[1], s[2]] + s[3..]
  {
  }
}
